=== FILE: README.md ===
# PodScore in Dafny

PodScore is a podcast tracker. A listener follows shows, marks episodes as listened, rates them from one to five stars with an optional review, and reads a timeline of reviews. This project models the logic of that application as pure Dafny functions over immutable datatypes. It covers:

- **The home feed** (`app/page.tsx`, `RecentEpisodes.tsx`): episodes released in the last two days, enriched with the listener's history and ratings. An episode stays in the feed until it is both listened to and rated.
- **The episodes page** (`app/episodes/page.tsx`): the enrichment of a show's episodes, mark-as-listened, the review flow, the search over episode names and descriptions, and the duration label.
- **The review dialogs**: the star-rating modal (`ReviewModal.tsx`), the three-step "log an episode" box (`PostBox.tsx`), the show search (`ShowSearch.tsx`), and the five-episode picker (`EpisodeSelect.tsx`).
- **The review pages** (`app/reviews/page.tsx`, `app/reviews/admin/page.tsx`, `Timeline.tsx`): grouping by show name, filtering by the selected show, newest-first ordering, likes, and the star line.
- **The sign-in form** (`Auth.tsx`): its three modes, the password confirmation and the error messages.
- **The two session gates** (`middleware.ts` and `app/middleware.ts`), together with their route matchers.
- **The Flask back end** (`api/index.py`) and the Spotify paging loop (`api/spotify_client.py`):
  - the rating range check;
  - the newest-first review listing with its limit;
  - the episode rows written for a show;
  - the default listening date;
  - the request guards and request order of the show search and of adding a show.

### How the model is built

React state becomes a record, and each event handler becomes a function from the old state to the new one. Sequences of events are folded by a `Run` function that carries the invariant. Network calls become inputs:

- `Response<T>`: an ok body, a non-ok status, or a rejected promise.
- `Outcome`: success, an HTTP error, or a thrown exception.

The JavaScript semantics the code relies on are written out explicitly:

- truthiness of `undefined`, `null`, `0` and `""`;
- the truncating `%`;
- `String.prototype.trim`;
- `includes`;
- `.some`.

On the back end a handler returns its status, its JSON body and the ordered trace of database and Spotify requests it makes.

### Behaviour of the code worth knowing

The model states each of these as the code behaves.

- **Rating map.** The rating map that both episode lists build keeps the last review per episode (`reduce` with assignment). The back end lists reviews newest first. So a re-rated episode shows its **oldest** rating, not its newest (`Enrichment.NewestFirstGivesOldestRating`).
- **Failed home refresh.** The home page keeps no error state: a failed refresh leaves the old feed in place and only clears the refreshing flag.
- **Review modal after a failed request.** `ReviewModal` calls `onSubmit` and then `onClose` without waiting for the request. The modal therefore closes even when saving the review fails, instead of staying open for a retry.
- **Post box keeps the last rating.** The post box never unmounts its review modal. The next post opens with the previous rating and text (`PostBox.DialogRemembersLastRating`).
- **Show search term.** The show search trims the term only to decide whether it is blank. The match itself uses the untrimmed term, so a trailing space can hide every show.
- **Admin form after a failed reload.** The admin review form is reset only when both the post and the reload of the list succeed.
- **Favicon matcher.** The root matcher's `favicon.ico` is a regular expression, so its dot matches any character except a line terminator.
- **Prefixes in `app/middleware.ts`.** Its protected and auth tests are raw prefixes, so `/profiles` counts as `/profile`. Its own matcher hides these loose prefixes.
- **Empty strings in the back end.** `add_show` refuses an empty `show_id`, but `mark_as_listened` stores an empty `listened_date` as given.
- **Sign-in errors.** An error with an empty message shows no banner in the sign-in form. The "reset link sent" notice is never cleared, so it reappears whenever the form returns to reset mode.

## Model

| member | source | states |
|---|---|---|
| Enrichment.ListenedIds | app/page.tsx:51 | an id is in the listened set exactly when some history record names it |
| Enrichment.RatingMap | app/page.tsx:52 | an episode has a rating exactly when some review names it, and the rating is that of its last review in the list |
| Enrichment.LookupIsLastRating | app/page.tsx:52-64 | an episode's looked-up rating is undefined when no review names it, and otherwise is the rating of the last review naming it |
| Enrichment.NewestFirstGivesOldestRating | app/page.tsx:52 | over a newest-first review list, the rating an episode shows comes from its oldest review |
| Enrichment.ReratedEpisodeShowsFirstRating | app/episodes/page.tsx:76 | an episode rated 2 and later re-rated 5 still shows 2 |
| HomeFeed.FilterAndEnrichEpisodes | app/page.tsx:48-67 | every feed entry is recent, unresolved and carries its listened flag and rating from the history and reviews |
| HomeFeed.FeedIsOrderedSelection | app/page.tsx:53-66 | the feed is the annotated episodes at a strictly increasing list of indices, so the input order is kept |
| HomeFeed.FeedIsComplete | app/page.tsx:53-60 | every recent episode never listened to appears in the feed |
| HomeFeed.ListenedButUnratedStays | app/page.tsx:57-59 | a listened but unrated recent episode stays while an old one leaves |
| HomeFeed.ListenedAndRatedLeaves | app/page.tsx:57-59 | a recent episode both listened to and rated leaves the feed |
| HomeFeed.RecencyBoundary | app/page.tsx:49-56 | exactly two days old is recent, a millisecond older is not, and a missing release date is not |
| HomeFeed.FinishRefresh | app/page.tsx:91-101 | the refresh ends not refreshing; the list changes only when all three responses are ok, and then becomes the enriched feed |
| HomeFeed.RefreshIsAllOrNothing | app/page.tsx:82-102 | a refresh either replaces the feed with the feed built from all three responses or, when any of them fails, keeps the old feed and only clears the refreshing flag |
| EpisodesPage.EnrichEpisodes | app/episodes/page.tsx:70-83 | every episode keeps its place and gains its listened flag and its last rating |
| EpisodesPage.EnrichIsIdempotent | app/episodes/page.tsx:70-83 | enriching an already enriched list changes nothing |
| EpisodesPage.FetchEpisodes | app/episodes/page.tsx:56-87 | loading ends; when all three responses are ok the list becomes `EnrichEpisodes` of the three bodies, otherwise it is kept; nothing else in the page state changes |
| EpisodesPage.HandleMarkAsListened | app/episodes/page.tsx:89-109 | on success only the named episode becomes listened; on failure the list is unchanged |
| EpisodesPage.HandleSubmitReview | app/episodes/page.tsx:132-155 | posts the trimmed review of the selected episode; on success only that episode takes the rating, on failure the handler throws and the list is unchanged |
| EpisodesPage.HandleReview | app/episodes/page.tsx:127-130 | opens the modal on the chosen episode without touching the list |
| EpisodesPage.CloseReviewModal | app/episodes/page.tsx:282-285 | closing clears the selection and keeps the list |
| EpisodesPage.FilteredEpisodes | app/episodes/page.tsx:120-125 | an empty query shows all episodes; otherwise only episodes whose name or description contains the query, ignoring case |
| EpisodesPage.SearchKeepsExactlyMatches | app/episodes/page.tsx:120-125 | a non-empty query keeps exactly the matching episodes, in order |
| EpisodesPage.ButtonsFollowMarkAsListened | app/episodes/page.tsx:243-259 | a row never offers both buttons, and marking it listened swaps "Mark as Listened" for "Rate Episode" |
| EpisodesPage.RatedRowOffersNoRating | app/episodes/page.tsx:251 | after a successful review the row offers no rating button |
| Duration.JsRem | app/episodes/page.tsx:114 | the remainder is Dafny's `%` for a non-negative dividend, has the dividend's sign, and lies strictly between -b and b |
| Duration.JsRemNegates | app/episodes/page.tsx:114 | negating the dividend negates the remainder, as JavaScript's truncating `%` does |
| Duration.HoursOfMinutes | app/episodes/page.tsx:112-113 | whole hours from whole minutes equal whole hours from milliseconds |
| Duration.FormatDurationReadsBack | app/episodes/page.tsx:111-118 | the label reads back as the hours and remaining minutes of the duration, and shows hours exactly from one hour on |
| RecentEpisodes.HandleEpisodeUpdate | app/components/RecentEpisodes.tsx:34-40 | a resolved episode leaves the list; any other update replaces the entry with the same id in place |
| RecentEpisodes.RemovalKeepsOthersInOrder | app/components/RecentEpisodes.tsx:35-36 | removing a resolved episode keeps every other entry, in order |
| RecentEpisodes.MarkAsListened | app/components/RecentEpisodes.tsx:142-157 | success marks the item listened and reports it upward; failure changes nothing and reports nothing |
| RecentEpisodes.SubmitReview | app/components/RecentEpisodes.tsx:159-179 | success stores the rating, closes the modal and reports the rated episode; failure changes nothing |
| RecentEpisodes.SubmitThroughModal | app/components/RecentEpisodes.tsx:260-268 | an enabled submit always closes the modal, even when the request fails |
| RecentEpisodes.CoverUrl | app/components/RecentEpisodes.tsx:186-188 | the cover is the first image's url when non-empty, else the stored image url, and never an empty string |
| RecentEpisodes.ItemTransitions | app/components/RecentEpisodes.tsx:224-248 | an unlistened item offers only "listen"; a failed mark keeps that; a successful one offers only "rate" |
| RecentEpisodes.ListenThenRateLeavesFeed | app/components/RecentEpisodes.tsx:137-179 | listening and then rating an episode removes it from the feed and keeps the others in order |
| RecentEpisodes.FilterSameOnKept | app/components/RecentEpisodes.tsx:34-40 | two lists that differ only in the entries with an id keep the same entries, in the same order, once that id is removed |
| ReviewModal.ClickStar | app/components/ReviewModal.tsx:39-43 | a star sets the rating to its value and keeps the text |
| ReviewModal.EditReview | app/components/ReviewModal.tsx:63-64 | typing replaces the text and keeps the rating |
| ReviewModal.RatingStaysInRange | app/components/ReviewModal.tsx:14-43 | after any inputs the rating is between 0 and 5, and it is 0 exactly when no star was clicked |
| ReviewModal.Submit | app/components/ReviewModal.tsx:19-23 | a disabled submit calls nothing; an enabled one calls onSubmit with the rating and text, then onClose |
| ReviewModal.SubmittedRatingIsValid | app/components/ReviewModal.tsx:77-79 | every rating the modal submits is between 1 and 5 |
| ReviewModal.HighlightedCountIsRating | app/components/ReviewModal.tsx:44-45 | the number of highlighted stars equals the rating |
| ReviewModal.Render | app/components/ReviewModal.tsx:17-45 | the dialog is hidden exactly when closed and otherwise shows five stars |
| PostBox.BeginLoadShows | app/components/PostBox.tsx:36-40 | loading starts with the error cleared and the steps untouched |
| PostBox.FinishLoadShows | app/components/PostBox.tsx:41-50 | loading ends; an ok response replaces the shows, anything else keeps them and sets the load error |
| PostBox.ShowSelect | app/components/PostBox.tsx:54-57 | picking a show moves to the episode step with that show |
| PostBox.EpisodeSelect | app/components/PostBox.tsx:59-63 | picking an episode moves to the review step and opens the review modal |
| PostBox.Back | app/components/PostBox.tsx:146 | "Back" returns to the show step and keeps the chosen show |
| PostBox.Close | app/components/PostBox.tsx:85-90 | closing resets the steps and keeps the loaded shows and the modal's contents |
| PostBox.BeginSubmit | app/components/PostBox.tsx:65-74 | without an episode nothing is posted; with one, the review of that episode is posted |
| PostBox.SettleSubmit | app/components/PostBox.tsx:75-82 | success resets the box; failure only sets the submit error |
| PostBox.HandleSubmit | app/components/PostBox.tsx:65-83 | posts the selected episode's id with the rating and the untrimmed review, resets the box on success and reports the error on failure |
| PostBox.SubmitThroughModal | app/components/PostBox.tsx:162-168 | an enabled submit resets the box whatever the outcome, and the modal keeps its rating and text |
| PostBox.Next | app/components/PostBox.tsx:113-168 | every event keeps the box consistent, and only modal input changes the modal |
| PostBox.Run | app/components/PostBox.tsx:27-34 | the box is consistent after any run of events |
| PostBox.OneDialogAtATime | app/components/PostBox.tsx:122-163 | at most one of the three dialogs is visible at any time |
| PostBox.DialogRemembersLastRating | app/components/PostBox.tsx:162-168 | after a submit, the next review dialog opens with the previous rating |
| Timeline.SortedPosts | app/components/Timeline.tsx:29-31 | the timeline is a newest-first permutation of the posts |
| Timeline.ToggleLike | app/components/Timeline.tsx:36-40 | a like flips the liked flag and moves the count by one in the matching direction, changing nothing else |
| Timeline.HandleLike | app/components/Timeline.tsx:33-44 | only the post with the id is toggled; the others are unchanged |
| Timeline.LikeTwiceRestores | app/components/Timeline.tsx:38-39 | liking twice restores every post up to a missing count becoming 0 |
| Timeline.LikeKeepsTimelineOrder | app/components/Timeline.tsx:29-44 | liking commutes with sorting, so the timeline order does not change |
| Timeline.RepeatStar | app/components/Timeline.tsx:91 | a non-negative count gives that many stars; a negative one throws |
| Timeline.StarLine | app/components/Timeline.tsx:91-92 | a rating from 0 to 5 gives five stars in all, of which the rating are gold; any other rating throws |
| Grouping.GroupBy | app/reviews/page.tsx:40-52 | the groups have distinct names, each holding exactly the items with that name, in order |
| Grouping.AddItemKeepsGrouping | app/reviews/page.tsx:41-44 | adding one item to a grouping gives the grouping of the extended list |
| Grouping.ItemsOfGroupBy | app/reviews/page.tsx:60 | the items of the selected group are the items with that name, in input order |
| Grouping.EachItemInItsOwnGroup | app/reviews/page.tsx:40-46 | every item lands in the group named by its key |
| ReviewsPage.Loaded | app/reviews/page.tsx:36-54 | an ok response replaces the reviews and groups them by show name; anything else changes nothing |
| ReviewsPage.HandleShowChange | app/reviews/page.tsx:56-58 | choosing a show changes only the selection |
| ReviewsPage.Displayed | app/reviews/page.tsx:93 | no selection shows every review; a selection shows that show's group |
| ReviewsPage.DisplayedIsFilterByShow | app/reviews/page.tsx:60-93 | the reviews shown for a chosen show are exactly the loaded reviews of that show, in order |
| AdminReviews.EpisodesLoaded | app/reviews/admin/page.tsx:52-69 | an ok response replaces the episodes and groups them by show name; the form is untouched |
| AdminReviews.HandleShowChange | app/reviews/admin/page.tsx:73-76 | choosing a show clears the episode choice and keeps the rest of the form |
| AdminReviews.EpisodeChoicesAreTheShowsEpisodes | app/reviews/admin/page.tsx:78 | the episode choices are exactly the loaded episodes of the chosen show |
| AdminReviews.SetRating | app/reviews/admin/page.tsx:179-183 | a star sets the rating and nothing else |
| AdminReviews.SubmitRequest | app/reviews/admin/page.tsx:86-98 | the post carries the chosen episode, the rating and the trimmed review |
| AdminReviews.HandleSubmit | app/reviews/admin/page.tsx:81-114 | submitting always ends; the form resets only when both the post and the reload succeed |
| AdminReviews.Next | app/reviews/admin/page.tsx:157-208 | every form event keeps the rating between 1 and 5 |
| AdminReviews.Run | app/reviews/admin/page.tsx:42-50 | the form invariant holds after any run of events |
| AdminReviews.PostedRatingIsValid | app/reviews/admin/page.tsx:179-208 | any review the form can post has a rating from 1 to 5 |
| ShowSearch.HandleSearch | app/components/ShowSearch.tsx:22-34 | a blank term gives no results; otherwise the results are shows whose name or publisher contains the term, ignoring case |
| ShowSearch.SearchKeepsExactlyMatches | app/components/ShowSearch.tsx:29-32 | a non-blank term keeps exactly the matching shows, in order |
| ShowSearch.DropdownIffSomeMatch | app/components/ShowSearch.tsx:47 | the dropdown shows exactly when the term is non-blank and some show matches |
| ShowSearch.TrailingSpaceDefeatsMatch | app/components/ShowSearch.tsx:24-32 | "cr " finds nothing where "cr" finds the show "Crab" |
| EpisodeSelect.BeginFetch | app/components/EpisodeSelect.tsx:31-34 | fetching starts loading and clears the error |
| EpisodeSelect.FinishFetch | app/components/EpisodeSelect.tsx:35-42 | loading ends; an ok response replaces the episodes, anything else keeps them and sets the load error |
| EpisodeSelect.Render | app/components/EpisodeSelect.tsx:67-105 | a loading message exactly while loading, "no episodes" exactly for an empty list, otherwise every episode with its formatted duration and "View All" exactly for five episodes |
| EpisodeSelect.FetchOutcomes | app/components/EpisodeSelect.tsx:31-43 | a fetch ends with the fetched episodes and no error, or the old ones and the load error |
| EpisodeSelect.ViewAllExactlyWhenPageFull | app/components/EpisodeSelect.tsx:98 | "View All" shows exactly when the five-episode request came back full |
| Routing.StartsWithSomeIffExists | app/middleware.ts:32-41 | the prefix test holds exactly when some listed prefix begins the path |
| AppMiddleware.Decide | app/middleware.ts:32-51 | without a session, protected prefixes go to /login; with one, auth prefixes go to /profile; nothing else is redirected |
| AppMiddleware.FourthCharacter | app/middleware.ts:32-41 | the fourth character of the path separates protected paths from auth paths |
| AppMiddleware.ProtectedAndAuthAreDisjoint | app/middleware.ts:32-41 | no path is both protected and an auth page |
| AppMiddleware.OthersPass | app/middleware.ts:51 | a request passes exactly when neither redirect rule applies |
| AppMiddleware.NoRedirectLoop | app/middleware.ts:43-49 | a redirect target passes under the same session |
| AppMiddleware.RawPrefixesMatchLongerNames | app/middleware.ts:32-41 | /profiles is gated like /profile and /loginx like /login |
| AppMiddleware.MatcherGatesWholeSegments | app/middleware.ts:43-62 | under its matcher the gate works on whole path segments: without a session exactly the protected areas and the pages below them go to /login; with a session exactly /login and /register go to /profile; nothing else is redirected |
| AppMiddleware.MatchedSegmentIsProtected | app/middleware.ts:32-35 | every matcher entry except the two auth pages selects a path the raw protected prefixes catch |
| AppMiddleware.MatcherHidesLoosePrefixes | app/middleware.ts:54-62 | under the matcher /profiles and /loginx pass while /profile/settings is redirected |
| RootMiddleware.Decide | middleware.ts:15-25 | without a session everything but exactly /auth and /verify goes to /auth; with one, /auth goes home and the rest passes |
| RootMiddleware.VerifyAlwaysPasses | middleware.ts:15-23 | /verify passes with or without a session |
| RootMiddleware.AuthCallbackIsRedirected | middleware.ts:15-17 | a page below /auth is redirected to /auth without a session |
| RootMiddleware.NoRedirectLoop | middleware.ts:15-25 | a redirect target passes under the same session |
| RootMiddleware.AssetsBypassTheGate | middleware.ts:29 | build assets and the favicon pass without a session |
| RootMiddleware.FaviconDotMatchesAnyCharacter | middleware.ts:29 | /faviconXico passes while /favourites is redirected |
| Backend.AddReview | api/index.py:83-92 | an out-of-range rating raises before any write; a valid one appends exactly the new row |
| Backend.Limited | api/index.py:116-118 | no limit or a negative one keeps every row; otherwise the first rows up to the limit |
| Backend.GetReviews | api/index.py:94-121 | the listing is newest first, drawn from the table, complete without a limit, as long as the limit allows, and no omitted row is newer than a listed one |
| Backend.NewReviewListedFirst | api/index.py:83-121 | a review newer than every stored one is the whole listing with limit 1 |
| Backend.EpisodeRowOf | api/index.py:225-243 | the row copies the episode's fields under the show id, and its cover is the first image or none for no images |
| Backend.ListenedRow | api/index.py:145-154 | a given listening date is stored as given; a missing one becomes today |
| Backend.SearchShows | api/index.py:348-355 | a missing or empty query answers 400 without asking Spotify; otherwise one search, whose results are returned, or a 500 when the search raised |
| Backend.SearchAsksSpotifyOnlyForAQuery | api/index.py:348-355 | for any Spotify answer, a raise included, a non-empty query makes exactly one Spotify request, a search for that query, and answers 200 exactly when the search returned and 500 exactly when it raised; an empty or missing one makes none, answers 400 whatever Spotify holds, and the route never opens the database |
| Backend.SaveEpisodes | api/index.py:225-244 | one episode row is written per episode, in the order given |
| Backend.AddShow | api/index.py:381-417 | an empty id answers 400 untouched; otherwise the database is opened, the id looked up, and closed last; a stored show is returned without calling Spotify; only a new show with both Spotify answers is reported as added, with its episode count |
| Backend.AddedShowWritesEveryEpisode | api/index.py:395-415 | a new show is written before its episodes, and each episode is written once, in order, under the requested id |
| Backend.EmptyStringGuards | api/index.py:384-386 | an empty show id is refused while an empty listening date is stored |
| SpotifyClient.GetPodcastEpisodes | api/spotify_client.py:10-32 | the loop stops at the first short page and returns the pages up to it, in order |
| SpotifyClient.CollectedHasFullPages | api/spotify_client.py:25-30 | before the stop every page was full, so the result has at least a full page per call |
| SpotifyClient.StopIsFirstShortPage | api/spotify_client.py:22-28 | the number of calls is determined by the pages alone |
| SpotifyClient.CollectedSlicesRebuildCatalogue | api/spotify_client.py:18-30 | paging through a catalogue by offset rebuilds its prefix |
| SpotifyClient.FetchWholeCatalogue | api/spotify_client.py:15-32 | against a catalogue served in slices the loop returns the whole catalogue, in order, for any page size |
| AuthForm.ErrorMessage | app/components/Auth.tsx:59-60 | an Error shows its message; anything else shows the fallback text |
| AuthForm.RequestFor | app/components/Auth.tsx:26-56 | only a sign-up whose passwords differ makes no request; each mode makes its own request with the typed fields |
| AuthForm.HandleSubmit | app/components/Auth.tsx:20-64 | loading always ends; a mismatch or failure shows its message and stays; success goes to /verify after sign-up, home after sign-in, and marks the reset mail sent |
| AuthForm.Follow | app/components/Auth.tsx:144-183 | a visible link switches to its mode and changes nothing else; a hidden one does nothing |
| AuthForm.ModeTransitions | app/components/Auth.tsx:144-183 | register and reset never reach each other directly |
| AuthForm.MismatchOnlyWhereConfirmShown | app/components/Auth.tsx:26-29 | a confirmation mismatch can only block a submit in the mode that shows the confirmation field |
| AuthForm.ResetNoticeComesBack | app/components/Auth.tsx:57-83 | the reset notice reappears after leaving and re-entering reset mode, and an empty error message shows no banner |
| AuthForm.Next | app/components/Auth.tsx:20-131 | no event leaves the form loading, the reset flag is never cleared, and a submit the browser's validation of the required fields blocks changes nothing |
| AuthForm.EventCall | app/components/Auth.tsx:20-131 | only a submit that passes the validation of the required fields sends a request, which is the mode's request and never carries an empty email or password |
| AuthForm.Run | app/components/Auth.tsx:10-16 | after any run of events the form is not loading, and the reset flag implies some submit succeeded |
| Sorting.SortDesc | app/components/Timeline.tsx:29-31 | the result is a descending permutation of the input |
| Sorting.InsertGoesFirstAmongEqualKeys | app/components/Timeline.tsx:29-31 | an inserted entry goes ahead of every entry with the same key and the others with that key keep their order |
| Sorting.SortIsStable | app/components/Timeline.tsx:29-31 | for every key, the entries with that key appear in the sorted timeline in their input order, as the stable JavaScript sort leaves them |
| Sorting.SortCommutesWithKeyPreservingMap | app/components/Timeline.tsx:29-44 | sorting commutes with any map that keeps the sort key |

## Left out

- Network, database and Spotify I/O. Responses and outcomes are inputs to the handlers, and back-end requests are recorded as an effect trace.
- The one-second minimum delay of the home refresh, and any interleaving of concurrent requests and React re-renders.
- Dates:
  - Clock reads are a `now` parameter in milliseconds.
  - `setDate(getDate() - 2)` is modelled as exactly two 86 400 000 ms days; daylight-saving shifts are not modelled.
  - Release dates are parsed to milliseconds before they reach the model, and a missing or unparsable date is not recent.
  - `toLocaleDateString` and `formatDistanceToNow` are display only.
- Case folding: `toLowerCase` is modelled on ASCII letters only.
- Timestamps: the ISO timestamps of reviews and history rows are integers in the same order.
- Ties in SQLite: `ORDER BY r.timestamp DESC` leaves the order of reviews with equal timestamps to SQLite. The contract of `Backend.GetReviews` does not depend on that order. The timeline's JavaScript `sort` is stable, and `Sorting.SortIsStable` proves that `Sorting.SortDesc` keeps equal keys in input order just as it does.
- Backend.GetReviews:
  - does not model the joins with `episodes` and `shows`. A review whose episode or show is missing is dropped by the query and is kept by the model.
  - does not model the `show_id` filter.
  - does not model `int()` parsing of the query argument.
- `search_reviews`, `get_listening_history`, `get_listening_stats`, `refresh_show` and the remaining GET routes of `api/index.py` are not part of this model. Neither are `search_podcast` and `get_show_details` of the Spotify client, beyond their results or the fact that they raised.
- Backend.AddShow: models `INSERT OR REPLACE` as a write in the trace, not as a table update, because the schema is not part of this model. `existing` is what the lookup returned.
- Backend.AddReview: does not model the 500 the route answers when `add_review` raises.
- SpotifyClient.GetPodcastEpisodes: requires that some page is short. A show whose pages stay full forever would not end the loop in the source either.
- The JSON `images` column of `save_show` is kept as the image list itself.
- Object key order:
  - The grouping keeps groups in order of first appearance. `Object.entries` order differs only for integer-like show names.
  - Grouping.GroupBy: treats every show name as an ordinary key. In the source, a name inherited from `Object.prototype`, such as `constructor` or `toString`, makes `acc[name]` truthy already (app/reviews/page.tsx:41), so the `.push` at line 44 throws and `setShows` is never reached; the admin page (app/reviews/admin/page.tsx:57-60) fails the same way. A show called `__proto__` is misgrouped as well.
- The profile pages, avatar upload, notifications and the rest of the layout are not part of this model.
- Auth.tsx: the Supabase client is a failure input. Redirect URLs and the `emailRedirectTo` option are not modelled.
- AuthForm.FormValid: checks only that the `required` fields on screen are non-empty. The browser's syntax check of a `type="email"` field is not modelled, so the model may send a request for an email the browser would refuse.

=== FILE: admin_reviews.dfy ===
/**
  The review administration page (app/reviews/admin/page.tsx): episodes
  grouped by show, a show select that resets the episode select, five star
  buttons over a rating that starts at 5, and a submit that posts the
  review, reloads the review list and resets the form.
 */
module AdminReviews {
  import opened Wrappers
  import opened Records
  import opened Grouping
  import opened Text
  import ReviewModal

  function ShowNameOf(e: Episode): string {
    e.showName
  }

  datatype Form = Form(
    selectedShow: string,
    selectedEpisode: string,
    rating: int,
    review: string,
    isSubmitting: bool)

  /** The form as the page first renders it and as a successful submit
      leaves it. */
  function EmptyForm(): Form {
    Form("", "", 5, "", false)
  }

  datatype AdminState = AdminState(
    episodes: seq<Episode>,
    shows: seq<Group<Episode>>,
    reviews: seq<ReviewRecord>,
    form: Form)

  function Initial(): AdminState {
    AdminState([], [], [], EmptyForm())
  }

  /** The episodes request of the mount effect settled. */
  function EpisodesLoaded(s: AdminState, res: Response<seq<Episode>>): (s': AdminState)
    ensures res.Ok? ==> s'.episodes == res.body && IsGrouping(s'.shows, res.body, ShowNameOf)
    ensures !res.Ok? ==> s' == s
    ensures s'.form == s.form && s'.reviews == s.reviews
  {
    if res.Ok? then s.(episodes := res.body, shows := GroupBy(res.body, ShowNameOf)) else s
  }

  /** `handleShowChange(showName)`: a new show clears the episode. */
  function HandleShowChange(f: Form, showName: string): (f': Form)
    ensures f'.selectedShow == showName && f'.selectedEpisode == ""
    ensures f'.rating == f.rating && f'.review == f.review && f'.isSubmitting == f.isSubmitting
  {
    f.(selectedShow := showName, selectedEpisode := "")
  }

  /** `selectedShowEpisodes`: the options of the episode select. */
  function EpisodeChoices(s: AdminState): seq<Episode> {
    ItemsOf(s.shows, s.form.selectedShow)
  }

  /** After the episodes have loaded, the episode choices are exactly the
      selected show's episodes in server order, and none for a show that has
      no group (including the empty "Select a show"). */
  lemma EpisodeChoicesAreTheShowsEpisodes(s: AdminState, body: seq<Episode>, showName: string)
    ensures var s' := EpisodesLoaded(s, Ok(body));
            var s2 := s'.(form := HandleShowChange(s'.form, showName));
            EpisodeChoices(s2) == WithKey(body, ShowNameOf, showName)
  {
    ItemsOfGroupBy(body, ShowNameOf, showName);
  }

  /** A star button: `setRating(value)` for a value in `[1, 2, 3, 4, 5]`. */
  function SetRating(f: Form, v: ReviewModal.StarValue): (f': Form)
    ensures f'.rating == v && f'.(rating := f.rating) == f
  {
    f.(rating := v)
  }

  /** `disabled={isSubmitting || !selectedEpisode}` */
  predicate CanSubmit(f: Form) {
    !f.isSubmitting && f.selectedEpisode != ""
  }

  /** The request `handleSubmit` sends: the selected episode id, the rating
      and the trimmed review. */
  function SubmitRequest(f: Form): (r: ReviewPost)
    ensures r.episodeId == f.selectedEpisode && r.rating == f.rating
    ensures r.review == Trim(f.review)
  {
    ReviewPost(f.selectedEpisode, f.rating, Trim(f.review))
  }

  /** `handleSubmit` once its requests settled: a failed post throws, a
      successful post is followed by a reload of the reviews that can throw
      too, and only when both succeed are the reviews replaced and the form
      reset. The `finally` clears `isSubmitting` in every case. */
  function HandleSubmit(s: AdminState, post: Outcome, reload: Response<seq<ReviewRecord>>): (s': AdminState)
    ensures !s'.form.isSubmitting
    ensures post.Ok() && reload.Ok? ==> s'.reviews == reload.body && s'.form == EmptyForm()
    ensures !(post.Ok() && reload.Ok?) ==>
              s'.reviews == s.reviews && s'.form == s.form.(isSubmitting := false)
    ensures s'.episodes == s.episodes && s'.shows == s.shows
  {
    if post.Ok() && reload.Ok? then
      s.(reviews := reload.body, form := EmptyForm())
    else
      s.(form := s.form.(isSubmitting := false))
  }

  /** What the user can do on the form; a control that is disabled changes
      nothing. */
  datatype Event =
    | ChooseShow(showName: string)
    | ChooseEpisode(episodeId: string)
    | ClickStar(v: ReviewModal.StarValue)
    | TypeReview(text: string)
    | Submit(post: Outcome, reload: Response<seq<ReviewRecord>>)

  /** Between events the form is idle, its rating is a star value, and an
      episode is selected only under a selected show. */
  predicate FormInvariant(f: Form) {
    !f.isSubmitting && 1 <= f.rating <= 5 && (f.selectedEpisode != "" ==> f.selectedShow != "")
  }

  function Next(s: AdminState, ev: Event): (s': AdminState)
    ensures FormInvariant(s.form) ==> FormInvariant(s'.form)
  {
    match ev
    case ChooseShow(name) => s.(form := HandleShowChange(s.form, name))
    case ChooseEpisode(id) =>
      if s.form.selectedShow != "" then s.(form := s.form.(selectedEpisode := id)) else s
    case ClickStar(v) => s.(form := SetRating(s.form, v))
    case TypeReview(text) => s.(form := s.form.(review := text))
    case Submit(post, reload) =>
      if CanSubmit(s.form) then HandleSubmit(s.(form := s.form.(isSubmitting := true)), post, reload)
      else s
  }

  /** The state after a run of events on a loaded page. */
  function Run(start: AdminState, events: seq<Event>): (s: AdminState)
    requires FormInvariant(start.form)
    ensures FormInvariant(s.form)
    decreases |events|
  {
    if events == [] then start
    else Next(Run(start, events[..|events| - 1]), events[|events| - 1])
  }

  /** Every review the page can post carries a rating from 1 to 5, and
      exactly that many of the five stars are drawn yellow (`value <= rating`,
      the same test as the rating dialog's). */
  lemma PostedRatingIsValid(start: AdminState, events: seq<Event>)
    requires FormInvariant(start.form)
    ensures var f := Run(start, events).form;
            CanSubmit(f) ==> 1 <= SubmitRequest(f).rating <= 5 && SubmitRequest(f).episodeId != ""
    ensures var f := Run(start, events).form;
            ReviewModal.HighlightedAmong(ReviewModal.ModalState(f.rating, f.review), 5) == f.rating
  {
    var f := Run(start, events).form;
    ReviewModal.HighlightedCountIsRating(ReviewModal.ModalState(f.rating, f.review));
  }
}

=== FILE: app_middleware.dfy ===
/**
  The session gate in app/middleware.ts: protected areas need a session,
  the login and register pages are for visitors without one. Both tests
  are raw string prefixes. Next.js loads middleware only from the project
  root, so this gate is modelled on its own and not composed with the root
  one.
 */
module AppMiddleware {
  import opened Text
  import opened Routing

  const ProtectedPaths: seq<string> := ["/profile", "/reviews/new", "/listening-history"]
  const AuthPaths: seq<string> := ["/login", "/register"]

  const LoginPage: string := "/login"
  const ProfilePage: string := "/profile"

  predicate IsProtectedPath(path: string) {
    StartsWithSome(path, ProtectedPaths)
  }

  predicate IsAuthPath(path: string) {
    StartsWithSome(path, AuthPaths)
  }

  /** The decision for `path` given whether the request carries a session. */
  function Decide(path: string, hasSession: bool): (d: Decision)
    ensures d == Redirect(LoginPage) <==>
              !hasSession && exists i :: 0 <= i < |ProtectedPaths| && IsPrefix(ProtectedPaths[i], path)
    ensures d == Redirect(ProfilePage) <==>
              hasSession && exists i :: 0 <= i < |AuthPaths| && IsPrefix(AuthPaths[i], path)
    ensures d.Redirect? ==> d.target == LoginPage || d.target == ProfilePage
  {
    StartsWithSomeIffExists(path, ProtectedPaths);
    StartsWithSomeIffExists(path, AuthPaths);
    if IsProtectedPath(path) && !hasSession then Redirect(LoginPage)
    else if IsAuthPath(path) && hasSession then Redirect(ProfilePage)
    else Pass
  }

  /** The fourth character tells the two lists apart: 'o', 'v' or 's' for a
      protected path, 'g' for an auth page. */
  lemma FourthCharacter(path: string)
    ensures IsProtectedPath(path) ==> |path| > 3 && path[3] != 'g'
    ensures IsAuthPath(path) ==> |path| > 3 && path[3] == 'g'
  {
    StartsWithSomeIffExists(path, ProtectedPaths);
    StartsWithSomeIffExists(path, AuthPaths);
    if IsProtectedPath(path) {
      var i :| 0 <= i < |ProtectedPaths| && IsPrefix(ProtectedPaths[i], path);
      assert path[3] == path[..|ProtectedPaths[i]|][3];
    }
    if IsAuthPath(path) {
      var j :| 0 <= j < |AuthPaths| && IsPrefix(AuthPaths[j], path);
      assert path[3] == path[..|AuthPaths[j]|][3];
    }
  }

  /** No path is both protected and an auth page, so the order of the two
      tests never matters. */
  lemma ProtectedAndAuthAreDisjoint(path: string)
    ensures !(IsProtectedPath(path) && IsAuthPath(path))
  {
    FourthCharacter(path);
  }

  /** Everything else passes: a path outside both lists, a protected path
      with a session, an auth page without one. */
  lemma OthersPass(path: string, hasSession: bool)
    ensures Decide(path, hasSession) == Pass <==>
              (hasSession || !IsProtectedPath(path)) && (!hasSession || !IsAuthPath(path))
  {
  }

  /** The redirect targets pass under the session that caused them: the
      login page without a session, the profile page with one. */
  lemma NoRedirectLoop(path: string, hasSession: bool)
    ensures var d := Decide(path, hasSession);
            d.Redirect? ==> Decide(d.target, hasSession) == Pass
  {
    ProtectedAndAuthAreDisjoint(LoginPage);
    ProtectedAndAuthAreDisjoint(ProfilePage);
    assert IsPrefix(AuthPaths[0], LoginPage);
    assert IsPrefix(ProtectedPaths[0], ProfilePage);
  }

  /** The prefixes are not path segments: "/profiles" is gated like
      "/profile" and "/loginx" like "/login". */
  lemma RawPrefixesMatchLongerNames()
    ensures Decide("/profiles", false) == Redirect(LoginPage)
    ensures Decide("/loginx", true) == Redirect(ProfilePage)
  {
    assert IsPrefix(ProtectedPaths[0], "/profiles");
    assert IsPrefix(AuthPaths[0], "/loginx");
  }

  /** The `config.matcher` entries: `/x/:path*` is `/x` itself or anything
      below `/x/`; `/login` and `/register` match only themselves. */
  predicate Matched(path: string) {
    path == "/profile" || IsPrefix("/profile/", path)
    || path == "/reviews/new" || IsPrefix("/reviews/new/", path)
    || path == "/listening-history" || IsPrefix("/listening-history/", path)
    || path == "/login" || path == "/register"
  }

  /** The gate as it would run under its matcher. */
  function Gate(path: string, hasSession: bool): Decision {
    UnderMatcher(Matched(path), Decide(path, hasSession))
  }

  /** A protected area as whole path segments: the area itself or a page
      below it. */
  predicate InProtectedArea(path: string) {
    exists i :: 0 <= i < |ProtectedPaths| &&
      (path == ProtectedPaths[i] || IsPrefix(ProtectedPaths[i] + "/", path))
  }

  /** A prefix ending in a slash starts the path only if the prefix without
      the slash does. */
  lemma SegmentPrefixIsPrefix(p: string, path: string)
    requires IsPrefix(p + "/", path)
    ensures IsPrefix(p, path)
  {
    assert path[..|p|] == path[..|p| + 1][..|p|];
    assert (p + "/")[..|p|] == p;
  }

  /** Every matcher entry other than the two auth pages selects a protected
      area or a page below it. */
  lemma MatchedSegmentIsProtected(path: string)
    requires Matched(path) && path != "/login" && path != "/register"
    ensures InProtectedArea(path) && IsProtectedPath(path)
  {
    StartsWithSomeIffExists(path, ProtectedPaths);
    var i := if path == "/profile" || IsPrefix("/profile/", path) then 0
             else if path == "/reviews/new" || IsPrefix("/reviews/new/", path) then 1
             else 2;
    assert path == ProtectedPaths[i] || IsPrefix(ProtectedPaths[i] + "/", path);
    if path != ProtectedPaths[i] {
      SegmentPrefixIsPrefix(ProtectedPaths[i], path);
    }
    assert IsPrefix(ProtectedPaths[i], path);
  }

  /** The matcher turns the raw prefixes into whole segments: without a
      session exactly the protected areas and the pages below them go to
      the login page, with a session exactly "/login" and "/register" go to
      the profile page, and nothing else is redirected. */
  lemma MatcherGatesWholeSegments(path: string)
    ensures Gate(path, false) == Redirect(LoginPage) <==> InProtectedArea(path)
    ensures Gate(path, true) == Redirect(ProfilePage) <==> path == "/login" || path == "/register"
    ensures Gate(path, false) == Pass || Gate(path, false) == Redirect(LoginPage)
    ensures Gate(path, true) == Pass || Gate(path, true) == Redirect(ProfilePage)
  {
    StartsWithSomeIffExists(path, ProtectedPaths);
    StartsWithSomeIffExists(path, AuthPaths);
    ProtectedAndAuthAreDisjoint(path);
    if InProtectedArea(path) {
      var i :| 0 <= i < |ProtectedPaths| &&
        (path == ProtectedPaths[i] || IsPrefix(ProtectedPaths[i] + "/", path));
      if path != ProtectedPaths[i] {
        SegmentPrefixIsPrefix(ProtectedPaths[i], path);
      }
      assert IsPrefix(ProtectedPaths[i], path);
    }
    if Matched(path) && path != "/login" && path != "/register" {
      MatchedSegmentIsProtected(path);
    }
    if path == "/login" || path == "/register" {
      assert IsPrefix(AuthPaths[0], "/login");
      assert IsPrefix(AuthPaths[1], "/register");
    }
  }

  /** Under the matcher the loose prefixes never reach the gate: "/profiles"
      and "/loginx" pass, while "/profile/settings" is still redirected. */
  lemma MatcherHidesLoosePrefixes()
    ensures Gate("/profiles", false) == Pass
    ensures Gate("/loginx", true) == Pass
    ensures Gate("/profile/settings", false) == Redirect(LoginPage)
  {
    assert !IsPrefix("/profile/", "/profiles") by {
      assert "/profiles"[..9] != "/profile/" by { assert "/profiles"[8] == 's'; }
    }
    assert IsPrefix("/profile/", "/profile/settings");
    assert IsPrefix(ProtectedPaths[0], "/profile/settings");
  }
}

=== FILE: auth_form.dfy ===
/**
  The sign-in form (app/components/Auth.tsx): three modes sharing one set
  of fields, a submit that checks the password confirmation before signing
  up, and links that switch between the modes.
 */
module AuthForm {
  import opened Wrappers

  datatype Mode = Login | Register | Reset

  datatype AuthState = AuthState(
    mode: Mode,
    email: string,
    password: string,
    confirmPassword: string,
    error: Option<string>,
    loading: bool,
    resetSent: bool)

  function Initial(): AuthState {
    AuthState(Login, "", "", "", None, false, false)
  }

  /** What a failed step threw: an `Error` with its message, or some other
      value. */
  datatype Thrown = ErrorValue(message: string) | OtherValue

  const MismatchMessage: string := "Passwords do not match"
  const FallbackMessage: string := "An error occurred"

  /** `err instanceof Error ? err.message : 'An error occurred'` */
  function ErrorMessage(t: Thrown): (m: string)
    ensures t.ErrorValue? ==> m == t.message
    ensures t.OtherValue? ==> m == FallbackMessage
  {
    match t
    case ErrorValue(msg) => msg
    case OtherValue => FallbackMessage
  }

  /** The Supabase request a submit makes. */
  datatype Call = SignUp(email: string, password: string) | SignIn(email: string, password: string) | ResetEmail(email: string)

  /** Where the router goes afterwards. */
  datatype Navigation = Stay | ToVerify | ToHome

  datatype Submitted = Submitted(state: AuthState, call: Option<Call>, nav: Navigation)

  /** The request a submit in the current mode makes; a sign-up whose two
      passwords differ throws before any request. */
  function RequestFor(s: AuthState): (c: Option<Call>)
    ensures c.None? <==> s.mode == Register && s.password != s.confirmPassword
    ensures c.Some? && s.mode == Register ==> c.value == SignUp(s.email, s.password)
    ensures s.mode == Login ==> c == Some(SignIn(s.email, s.password))
    ensures s.mode == Reset ==> c == Some(ResetEmail(s.email))
  {
    match s.mode
    case Register => if s.password != s.confirmPassword then None else Some(SignUp(s.email, s.password))
    case Login => Some(SignIn(s.email, s.password))
    case Reset => Some(ResetEmail(s.email))
  }

  /** `handleSubmit` once its request settled; `failure` is what the request
      threw (Supabase's returned error is thrown too), `None` for success. */
  function HandleSubmit(s: AuthState, failure: Option<Thrown>): (r: Submitted)
    ensures !r.state.loading
    ensures r.call == RequestFor(s)
    ensures r.state.mode == s.mode && r.state.email == s.email
    ensures r.state.password == s.password && r.state.confirmPassword == s.confirmPassword
    ensures r.call.None? ==> r.state.error == Some(MismatchMessage) && r.nav == Stay
                             && r.state.resetSent == s.resetSent
    ensures r.call.Some? && failure.Some? ==>
              r.state.error == Some(ErrorMessage(failure.value)) && r.nav == Stay
              && r.state.resetSent == s.resetSent
    ensures r.call.Some? && failure.None? ==>
              r.state.error.None?
              && (r.nav == ToVerify <==> s.mode == Register)
              && (r.nav == ToHome <==> s.mode == Login)
              && r.state.resetSent == (s.resetSent || s.mode == Reset)
  {
    var started := s.(error := None, loading := true);
    var call := RequestFor(s);
    if call.None? then
      Submitted(started.(error := Some(MismatchMessage), loading := false), None, Stay)
    else if failure.Some? then
      Submitted(started.(error := Some(ErrorMessage(failure.value)), loading := false), call, Stay)
    else
      match s.mode
      case Register => Submitted(started.(loading := false), call, ToVerify)
      case Login => Submitted(started.(loading := false), call, ToHome)
      case Reset => Submitted(started.(resetSent := true, loading := false), call, Stay)
  }

  /** `{error && (…)}`: an empty message is falsy and shows no banner. */
  predicate ErrorBannerShown(s: AuthState) {
    s.error.Some? && s.error.value != ""
  }

  /** `{resetSent && mode === 'reset' && (…)}` */
  predicate ResetNoticeShown(s: AuthState) {
    s.resetSent && s.mode == Reset
  }

  predicate PasswordFieldShown(m: Mode) {
    m != Reset
  }

  predicate ConfirmFieldShown(m: Mode) {
    m == Register
  }

  /** The mode links: "Forgot Password?" and "Sign Up" under the login form,
      "Sign In" under the register form, "Back to Sign In" under the reset
      form. */
  datatype Link = ForgotPassword | SignUpLink | SignInLink | BackToSignIn

  function LinksShown(m: Mode): (links: set<Link>) {
    match m
    case Login => {ForgotPassword, SignUpLink}
    case Register => {SignInLink}
    case Reset => {BackToSignIn}
  }

  function Target(l: Link): Mode {
    match l
    case ForgotPassword => Reset
    case SignUpLink => Register
    case SignInLink => Login
    case BackToSignIn => Login
  }

  /** Clicking a link switches the mode and nothing else; a link that is not
      on screen cannot be clicked. */
  function Follow(s: AuthState, l: Link): (s': AuthState)
    ensures l in LinksShown(s.mode) ==> s' == s.(mode := Target(l))
    ensures l !in LinksShown(s.mode) ==> s' == s
  {
    if l in LinksShown(s.mode) then s.(mode := Target(l)) else s
  }

  /** Every mode change is one of login to reset, login to register,
      register to login, or reset to login; register and reset never reach
      each other directly. */
  lemma ModeTransitions(s: AuthState, l: Link)
    ensures var m := Follow(s, l).mode;
            m == s.mode
            || (s.mode == Login && (m == Reset || m == Register))
            || (s.mode == Register && m == Login)
            || (s.mode == Reset && m == Login)
  {
  }

  /** A confirmation mismatch can only stop a submit in the one mode whose
      form shows the confirmation field. */
  lemma MismatchOnlyWhereConfirmShown(s: AuthState)
    ensures RequestFor(s).None? ==> ConfirmFieldShown(s.mode) && PasswordFieldShown(s.mode)
    ensures !ConfirmFieldShown(s.mode) ==> RequestFor(s).Some?
  {
  }

  /** The notice of a sent reset mail outlives the mode switch: after a
      successful reset, going back to sign in and returning to the reset
      form shows the notice again before anything is sent. An `Error` with
      an empty message leaves no banner. */
  lemma ResetNoticeComesBack(s: AuthState)
    requires s.mode == Login
    ensures var a := Follow(s, ForgotPassword);
            var b := HandleSubmit(a, None).state;
            var c := Follow(Follow(b, BackToSignIn), ForgotPassword);
            ResetNoticeShown(b) && !ResetNoticeShown(Follow(b, BackToSignIn)) && ResetNoticeShown(c)
    ensures !ErrorBannerShown(HandleSubmit(s, Some(ErrorValue(""))).state)
  {
  }

  /** The browser's constraint validation of the `required` fields on
      screen: the email always, the password unless resetting, and the
      confirmation when registering. A form that fails it never reaches
      `handleSubmit`. */
  predicate FormValid(s: AuthState) {
    s.email != ""
    && (PasswordFieldShown(s.mode) ==> s.password != "")
    && (ConfirmFieldShown(s.mode) ==> s.confirmPassword != "")
  }

  /** A request carries a non-empty email, and a password wherever it
      carries one. */
  predicate FieldsFilled(c: Call) {
    c.email != "" && (c.SignUp? || c.SignIn? ==> c.password != "")
  }

  /** What a user can do with the form; the submit button is disabled while
      a request is pending. */
  datatype Event =
    | TypeEmail(text: string)
    | TypePassword(text: string)
    | TypeConfirm(text: string)
    | Click(link: Link)
    | Submit(failure: Option<Thrown>)

  /** Whether a submit event gets as far as `handleSubmit`. */
  predicate SubmitRuns(s: AuthState) {
    !s.loading && FormValid(s)
  }

  function Next(s: AuthState, ev: Event): (s': AuthState)
    ensures !s.loading ==> !s'.loading
    ensures s.resetSent ==> s'.resetSent
    ensures ev.Submit? && !FormValid(s) ==> s' == s
  {
    match ev
    case TypeEmail(t) => s.(email := t)
    case TypePassword(t) => s.(password := t)
    case TypeConfirm(t) => s.(confirmPassword := t)
    case Click(l) => Follow(s, l)
    case Submit(f) => if SubmitRuns(s) then HandleSubmit(s, f).state else s
  }

  /** The request an event sends: only a submit that passes the browser's
      validation sends one, and then it is the mode's request, never with an
      empty email or an empty password. */
  function EventCall(s: AuthState, ev: Event): (c: Option<Call>)
    ensures c.Some? ==> ev.Submit? && FormValid(s) && c == RequestFor(s) && FieldsFilled(c.value)
    ensures ev.Submit? && SubmitRuns(s) ==> c == RequestFor(s)
    ensures ev.Submit? && s.mode == Login && s.email != "" && s.password != "" && !s.loading ==>
              c == Some(SignIn(s.email, s.password))
  {
    if ev.Submit? && SubmitRuns(s) then RequestFor(s) else None
  }

  /** The form after a run of events from the first render: never left
      loading, and the reset notice is set only after some submit succeeded. */
  function Run(events: seq<Event>): (s: AuthState)
    ensures !s.loading
    ensures s.resetSent ==> exists i :: 0 <= i < |events| && events[i] == Submit(None)
    decreases |events|
  {
    if events == [] then Initial()
    else
      var prev := Run(events[..|events| - 1]);
      assert forall i :: 0 <= i < |events| - 1 ==> events[..|events| - 1][i] == events[i];
      Next(prev, events[|events| - 1])
  }
}

=== FILE: backend.dfy ===
/**
  The Flask back end in api/index.py: the review table's rating check and
  newest-first listing, the row `save_episodes` writes, the default date of
  `mark_as_listened`, and the request guards of the show search and of
  adding a show. Tables are in-memory sequences; the Spotify client and the
  database lookups are inputs, and the requests a handler makes are
  recorded as a trace of effects.
 */
module Backend {
  import opened Wrappers
  import opened Records
  import opened Sorting

  // ---------------------------------------------------------------------
  // Reviews
  // ---------------------------------------------------------------------

  /** A row of the `reviews` table. `timestamp` is the time of the insert;
      the ISO strings the server writes compare in the same order as the
      instants they name, so an integer stands for them. */
  datatype ReviewRow = ReviewRow(episodeId: string, rating: int, review: string, timestamp: int)

  function Timestamp(r: ReviewRow): int {
    r.timestamp
  }

  /** What a database call produced: a value, or a raised exception. */
  datatype Raised<+T> = Returned(value: T) | Raised(message: string)

  const RatingError: string := "Rating must be between 1 and 5"

  /** `Database.add_review`: the range check comes before any table access;
      a valid review is inserted as one new row stamped `now`. */
  function AddReview(reviews: seq<ReviewRow>, episodeId: string, rating: int, review: string, now: int)
    : (r: Raised<seq<ReviewRow>>)
    ensures r.Raised? <==> rating < 1 || 5 < rating
    ensures r.Raised? ==> r.message == RatingError
    ensures r.Returned? ==>
              |r.value| == |reviews| + 1 && r.value[..|reviews|] == reviews
              && r.value[|reviews|] == ReviewRow(episodeId, rating, review, now)
  {
    if rating < 1 || rating > 5 then Raised(RatingError)
    else Returned(reviews + [ReviewRow(episodeId, rating, review, now)])
  }

  /** `LIMIT ?` as SQLite reads it: a negative limit means no limit. */
  function Limited<T>(xs: seq<T>, limit: Option<int>): (r: seq<T>)
    ensures limit.None? || limit.value < 0 ==> r == xs
    ensures limit.Some? && limit.value >= 0 ==>
              |r| == (if limit.value < |xs| then limit.value else |xs|)
    ensures r == xs[..|r|]
  {
    if limit.None? || limit.value < 0 then xs
    else if limit.value < |xs| then xs[..limit.value]
    else xs
  }

  /** No row left out of `r` is newer than a row in `r`. */
  ghost predicate KeepsNewest(r: seq<ReviewRow>, all: seq<ReviewRow>) {
    forall x, y :: x in multiset(all) - multiset(r) && y in r ==> x.timestamp <= y.timestamp
  }

  /** `Database.get_reviews` without a show filter: the rows newest first,
      cut to `limit`. */
  function GetReviews(reviews: seq<ReviewRow>, limit: Option<int>): (r: seq<ReviewRow>)
    ensures SortedDesc(r, Timestamp)
    ensures multiset(r) <= multiset(reviews)
    ensures limit.None? || limit.value < 0 ==> multiset(r) == multiset(reviews)
    ensures limit.Some? && limit.value >= 0 ==>
              |r| == (if limit.value < |reviews| then limit.value else |reviews|)
    ensures KeepsNewest(r, reviews)
  {
    var s := SortDesc(reviews, Timestamp);
    var r := Limited(s, limit);
    PrefixOfSortedKeepsNewest(s, |r|);
    r
  }

  lemma PrefixOfSortedKeepsNewest(s: seq<ReviewRow>, k: nat)
    requires k <= |s|
    requires SortedDesc(s, Timestamp)
    ensures SortedDesc(s[..k], Timestamp)
    ensures multiset(s[..k]) <= multiset(s)
    ensures KeepsNewest(s[..k], s)
  {
    assert s == s[..k] + s[k..];
    assert multiset(s) == multiset(s[..k]) + multiset(s[k..]);
    forall x, y | x in multiset(s) - multiset(s[..k]) && y in s[..k]
      ensures x.timestamp <= y.timestamp
    {
      assert x in multiset(s[k..]);
      var j :| 0 <= j < |s[k..]| && s[k..][j] == x;
      var i :| 0 <= i < k && s[..k][i] == y;
      assert s[i] == y && s[k + j] == x;
    }
  }

  /** A review added after every stored one is the first row of the
      listing; with `limit=1` it is the only row. */
  lemma NewReviewListedFirst(reviews: seq<ReviewRow>, episodeId: string, rating: int, review: string, now: int)
    requires 1 <= rating <= 5
    requires forall i :: 0 <= i < |reviews| ==> reviews[i].timestamp < now
    ensures var r := AddReview(reviews, episodeId, rating, review, now);
            r.Returned? && GetReviews(r.value, Some(1)) == [ReviewRow(episodeId, rating, review, now)]
  {
    var row := ReviewRow(episodeId, rating, review, now);
    var all := reviews + [row];
    assert AddReview(reviews, episodeId, rating, review, now) == Returned(all);
    var s := SortDesc(all, Timestamp);
    assert row in multiset(s) by { assert all[|reviews|] == row; }
    var j :| 0 <= j < |s| && s[j] == row;
    assert s[0].timestamp >= now by {
      if j > 0 {
        assert Timestamp(s[0]) >= Timestamp(s[j]);
      }
    }
    assert s[0] !in reviews;
    assert s[0] in multiset(reviews) + multiset{row} by {
      assert multiset(all) == multiset(reviews) + multiset{row};
      assert s[0] in multiset(s);
    }
    assert s[0] == row;
    assert Limited(s, Some(1)) == [row];
  }

  // ---------------------------------------------------------------------
  // Episodes and listening history
  // ---------------------------------------------------------------------

  /** An episode as the Spotify client returns it. */
  datatype SpotifyEpisode = SpotifyEpisode(
    id: string,
    name: string,
    description: string,
    releaseDate: string,
    durationMs: int,
    spotifyUrl: string,
    images: seq<Image>)

  /** A row of the `episodes` table. */
  datatype EpisodeRow = EpisodeRow(
    id: string,
    showId: string,
    name: string,
    description: string,
    releaseDate: string,
    durationMs: int,
    spotifyUrl: string,
    imageUrl: Option<string>)

  /** The row `save_episodes` writes for one episode of `showId`: the fields
      copied, the cover taken from the first image, or none for an empty
      image list. */
  function EpisodeRowOf(e: SpotifyEpisode, showId: string): (row: EpisodeRow)
    ensures row.id == e.id && row.showId == showId && row.name == e.name
    ensures row.description == e.description && row.releaseDate == e.releaseDate
    ensures row.durationMs == e.durationMs && row.spotifyUrl == e.spotifyUrl
    ensures row.imageUrl.None? <==> |e.images| == 0
    ensures row.imageUrl.Some? ==> row.imageUrl.value == e.images[0].url
  {
    EpisodeRow(e.id, showId, e.name, e.description, e.releaseDate, e.durationMs, e.spotifyUrl,
               if |e.images| > 0 then Some(e.images[0].url) else None)
  }

  /** A row of `listening_history`. */
  datatype HistoryRow = HistoryRow(episodeId: string, listenedDate: string, timestamp: int)

  /** The row `Database.mark_as_listened` writes: the given date, or
      `today` when none was given. Only a missing date is replaced; an empty
      string is kept. */
  function ListenedRow(episodeId: string, listenedDate: Option<string>, today: string, now: int): (row: HistoryRow)
    ensures row.episodeId == episodeId && row.timestamp == now
    ensures listenedDate.Some? ==> row.listenedDate == listenedDate.value
    ensures listenedDate.None? ==> row.listenedDate == today
  {
    HistoryRow(episodeId, listenedDate.GetOr(today), now)
  }

  // ---------------------------------------------------------------------
  // Routes
  // ---------------------------------------------------------------------

  /** A show's details as Spotify returns them. */
  datatype ShowDetails = ShowDetails(name: string, publisher: string, totalEpisodes: int, images: seq<Image>)

  /** A row of the `shows` table. */
  datatype ShowRow = ShowRow(id: string, name: string, publisher: string, totalEpisodes: int, images: seq<Image>)

  /** The requests a handler makes, in order. */
  datatype Effect =
    | OpenDb
    | CloseDb
    | ReadShow(showId: string)
    | FetchShowDetails(showId: string)
    | FetchEpisodes(showId: string)
    | SearchSpotify(query: string)
    | WriteShow(show: ShowRow)
    | WriteEpisode(episode: EpisodeRow)

  predicate IsSpotifyCall(e: Effect) {
    e.FetchShowDetails? || e.FetchEpisodes? || e.SearchSpotify?
  }

  /** The JSON a handler answers with. */
  datatype Body =
    | ErrorBody(error: string)
    | ShowList(shows: seq<Show>)
    | ShowExists(show: ShowRow)
    | ShowAdded(details: ShowDetails, episodesCount: int)
    | ServerError

  datatype Reply = Reply(status: int, body: Body, effects: seq<Effect>)

  const QueryRequired: string := "Query parameter \"q\" is required"
  const ShowIdRequired: string := "show_id is required"

  /** `GET /api/shows/search?q=…`: a missing or empty query is refused before
      Spotify is asked; otherwise the search results are returned. `results`
      is what `search_podcast` answers, `None` when the Spotify call raised
      (the route then fails with a server error). */
  function SearchShows(q: Option<string>, results: Option<seq<Show>>): (r: Reply)
    ensures (q.None? || q.value == "") ==>
              r.status == 400 && r.body == ErrorBody(QueryRequired) && r.effects == []
    ensures q.Some? && q.value != "" && results.Some? ==>
              r.status == 200 && r.body == ShowList(results.value) && r.effects == [SearchSpotify(q.value)]
    ensures q.Some? && q.value != "" && results.None? ==>
              r.status == 500 && r.body == ServerError && r.effects == [SearchSpotify(q.value)]
  {
    if q.None? || q.value == "" then Reply(400, ErrorBody(QueryRequired), [])
    else match results
      case Some(shows) => Reply(200, ShowList(shows), [SearchSpotify(q.value)])
      case None => Reply(500, ServerError, [SearchSpotify(q.value)])
  }

  /** How many requests to Spotify a trace makes. */
  function SpotifyCallCount(effects: seq<Effect>): nat
    decreases |effects|
  {
    if effects == [] then 0
    else (if IsSpotifyCall(effects[0]) then 1 else 0) + SpotifyCallCount(effects[1..])
  }

  /** For every answer Spotify could give, a raise included: a non-empty
      query makes exactly one Spotify search, with that query, and answers
      200 exactly when the search returned; a missing or empty query makes
      no request at all, answers 400, and its reply does not depend on what
      Spotify would have answered. The route never opens the database. */
  lemma SearchAsksSpotifyOnlyForAQuery(q: Option<string>, results: Option<seq<Show>>,
                                       other: Option<seq<Show>>)
    ensures var r := SearchShows(q, results);
            SpotifyCallCount(r.effects) == (if q.Some? && q.value != "" then 1 else 0)
            && (r.status == 200 <==> q.Some? && q.value != "" && results.Some?)
            && (r.status == 500 <==> q.Some? && q.value != "" && results.None?)
            && (forall i :: 0 <= i < |r.effects| ==> r.effects[i] == SearchSpotify(q.value))
            && OpenDb !in r.effects
    ensures (q.None? || q.value == "") ==> SearchShows(q, results) == SearchShows(q, other)
  {
    var r := SearchShows(q, results);
    if q.Some? && q.value != "" {
      assert r.effects[1..] == [];
    }
  }

  /** The writes of `save_episodes`, one per episode in the order given. */
  function SaveEpisodes(episodes: seq<SpotifyEpisode>, showId: string): (w: seq<Effect>)
    ensures |w| == |episodes|
    ensures forall i :: 0 <= i < |w| ==> w[i] == WriteEpisode(EpisodeRowOf(episodes[i], showId))
  {
    seq(|episodes|, i requires 0 <= i < |episodes| => WriteEpisode(EpisodeRowOf(episodes[i], showId)))
  }

  /** `POST /api/shows`. `existing` is what the lookup of the id found;
      `details` and `episodes` are what Spotify answers, `None` when the
      call raised (the route then fails with a server error, and the
      `finally` still closes the database). */
  function AddShow(showId: Option<string>, existing: Option<ShowRow>,
                   details: Option<ShowDetails>, episodes: Option<seq<SpotifyEpisode>>): (r: Reply)
    ensures (showId.None? || showId.value == "") ==>
              r.status == 400 && r.body == ErrorBody(ShowIdRequired) && r.effects == []
    ensures showId.Some? && showId.value != "" ==>
              |r.effects| >= 3 && r.effects[0] == OpenDb && r.effects[1] == ReadShow(showId.value)
              && r.effects[|r.effects| - 1] == CloseDb
    ensures showId.Some? && showId.value != "" && existing.Some? ==>
              r.status == 200 && r.body == ShowExists(existing.value)
              && forall i :: 0 <= i < |r.effects| ==> !IsSpotifyCall(r.effects[i]) && !r.effects[i].WriteShow?
    ensures r.body.ShowAdded? ==>
              showId.Some? && existing.None? && details.Some? && episodes.Some?
              && r.body.episodesCount == |episodes.value|
  {
    if showId.None? || showId.value == "" then
      Reply(400, ErrorBody(ShowIdRequired), [])
    else
      var id := showId.value;
      if existing.Some? then
        Reply(200, ShowExists(existing.value), [OpenDb, ReadShow(id), CloseDb])
      else if details.None? then
        Reply(500, ServerError, [OpenDb, ReadShow(id), FetchShowDetails(id), CloseDb])
      else
        var d := details.value;
        var row := ShowRow(id, d.name, d.publisher, d.totalEpisodes, d.images);
        var before := [OpenDb, ReadShow(id), FetchShowDetails(id), WriteShow(row), FetchEpisodes(id)];
        if episodes.None? then
          Reply(500, ServerError, before + [CloseDb])
        else
          Reply(200, ShowAdded(d, |episodes.value|), before + SaveEpisodes(episodes.value, id) + [CloseDb])
  }

  /** A new show is stored with the requested id and Spotify's details before
      its episodes, each episode is written once, in Spotify's order and
      under the requested id, and the reply counts exactly those writes. */
  lemma AddedShowWritesEveryEpisode(id: string, d: ShowDetails, eps: seq<SpotifyEpisode>)
    requires id != ""
    ensures var r := AddShow(Some(id), None, Some(d), Some(eps));
            r.status == 200 && r.body == ShowAdded(d, |eps|)
            && r.effects[3] == WriteShow(ShowRow(id, d.name, d.publisher, d.totalEpisodes, d.images))
            && |r.effects| == |eps| + 6
            && forall i :: 0 <= i < |eps| ==>
                 r.effects[5 + i].WriteEpisode? && r.effects[5 + i].episode.id == eps[i].id
                 && r.effects[5 + i].episode.showId == id
  {
  }

  /** An empty `show_id` is refused like a missing one, while an empty
      `listened_date` is stored as given: one guard tests falsiness, the
      other tests for `None`. */
  lemma EmptyStringGuards(today: string, now: int)
    ensures AddShow(Some(""), None, None, None).status == 400
    ensures ListenedRow("e1", Some(""), today, now).listenedDate == ""
    ensures ListenedRow("e1", None, today, now).listenedDate == today
  {
  }
}

=== FILE: duration.dfy ===
/**
  `formatDuration`, which the episodes page and the episode picker define
  identically: a length in milliseconds rendered as "<h>h <m>m" or "<m>m".
 */
module Duration {
  import opened Wrappers
  import opened Text

  const MsPerMinute: int := 60_000
  const MinutesPerHour: int := 60
  const MsPerHour: int := 3_600_000

  /** JavaScript `a % b` for `b > 0`: the remainder has the dividend's sign,
      and for a non-negative dividend it is Dafny's `%`. */
  function JsRem(a: int, b: int): (r: int)
    requires b > 0
    ensures a >= 0 ==> r == a % b
    ensures -b < r < b
    ensures a <= 0 ==> r <= 0
  {
    if a >= 0 then a % b
    else
      assert 0 <= (-a) % b < b;
      -((-a) % b)
  }

  /** Negating the dividend negates the remainder. */
  lemma JsRemNegates(a: int, b: int)
    requires b > 0
    ensures JsRem(-a, b) == -JsRem(a, b)
  {
  }

  /** The text rendered for a duration of `ms` milliseconds.
      `Math.floor(x / k)` with `k > 0` is Dafny's Euclidean `x / k`. */
  function FormatDuration(ms: int): string {
    var minutes := ms / MsPerMinute;
    var hours := minutes / MinutesPerHour;
    var remainingMinutes := JsRem(minutes, MinutesPerHour);
    if hours > 0 then
      IntToDecimal(hours) + "h " + IntToDecimal(remainingMinutes) + "m"
    else
      IntToDecimal(minutes) + "m"
  }

  /** What a reader takes from a rendered duration. */
  datatype Shown = HoursMinutes(hours: int, minutes: int) | MinutesOnly(minutes: int)

  /** The first position of `c` in `s`, if any. */
  function FirstIndexOf(s: string, c: char): (k: Option<nat>)
    ensures k.Some? ==> k.value < |s| && s[k.value] == c
                        && forall j :: 0 <= j < k.value ==> s[j] != c
    ensures k.None? ==> forall j :: 0 <= j < |s| ==> s[j] != c
    decreases |s|
  {
    if s == [] then None
    else if s[0] == c then Some(0)
    else match FirstIndexOf(s[1..], c)
      case None => None
      case Some(k) => Some(k + 1)
  }

  /** Reads a rendered duration back: "<h>h <m>m" or "<m>m". */
  function ParseDuration(s: string): Option<Shown> {
    if |s| == 0 || s[|s| - 1] != 'm' then None
    else
      var body := s[..|s| - 1];
      match FirstIndexOf(body, 'h')
      case None =>
        (match ParseInt(body)
         case Some(m) => Some(MinutesOnly(m))
         case None => None)
      case Some(k) =>
        if k + 1 < |body| && body[k + 1] == ' ' then
          match (ParseInt(body[..k]), ParseInt(body[k + 2..]))
          case (Some(h), Some(m)) => Some(HoursMinutes(h, m))
          case _ => None
        else None
  }

  /** Nested floor divisions compose: whole hours of the whole minutes are
      the whole hours of the milliseconds. */
  lemma HoursOfMinutes(ms: int)
    ensures (ms / MsPerMinute) / MinutesPerHour == ms / MsPerHour
  {
    var q := ms / MsPerMinute;
    var r1 := ms % MsPerMinute;
    var h := q / MinutesPerHour;
    var r2 := q % MinutesPerHour;
    assert ms == MsPerMinute * q + r1;
    assert q == MinutesPerHour * h + r2;
    assert ms == MsPerHour * h + (MsPerMinute * r2 + r1);
    assert 0 <= MsPerMinute * r2 + r1 < MsPerHour;
  }

  /** The rendered duration reads back as the whole hours of `ms` and the
      minutes past the hour (always below 60) when `ms` reaches an hour, and
      as the whole minutes of `ms` otherwise; either way the hours and
      minutes shown add up to the whole minutes of `ms`. */
  lemma FormatDurationReadsBack(ms: int)
    ensures ms >= MsPerHour ==>
              ParseDuration(FormatDuration(ms))
              == Some(HoursMinutes(ms / MsPerHour, (ms / MsPerMinute) % MinutesPerHour))
    ensures ms < MsPerHour ==>
              ParseDuration(FormatDuration(ms)) == Some(MinutesOnly(ms / MsPerMinute))
    ensures ms >= MsPerHour ==>
              (ms / MsPerHour) * MinutesPerHour + (ms / MsPerMinute) % MinutesPerHour
              == ms / MsPerMinute
  {
    HoursOfMinutes(ms);
    var minutes := ms / MsPerMinute;
    var hours := minutes / MinutesPerHour;
    var s := FormatDuration(ms);
    if hours > 0 {
      var hs := IntToDecimal(hours);
      var ms' := IntToDecimal(JsRem(minutes, MinutesPerHour));
      var body := hs + "h " + ms';
      assert s == body + "m";
      assert s[..|s| - 1] == body;
      assert body[|hs|] == 'h';
      assert FirstIndexOf(body, 'h') == Some(|hs|);
      assert body[..|hs|] == hs;
      assert body[|hs| + 2..] == ms';
      IntRoundTrip(hours);
      IntRoundTrip(JsRem(minutes, MinutesPerHour));
    } else {
      var body := IntToDecimal(minutes);
      assert s[..|s| - 1] == body;
      assert FirstIndexOf(body, 'h') == None;
      IntRoundTrip(minutes);
    }
  }
}

=== FILE: enrichment.dfy ===
/**
  Joining episodes with the listening history and the reviews: the
  listened-set is set membership on `episode_id`, and the rating lookup is a
  JavaScript `Map` built from the reviews in response order, so a later
  review of the same episode overwrites an earlier one.
 */
module Enrichment {
  import opened Wrappers
  import opened Records

  /** `new Set(history.map(h => h.episode_id))`. */
  function ListenedIds(history: seq<HistoryRecord>): (ids: set<string>)
    ensures forall id :: id in ids <==> exists h :: h in history && h.episodeId == id
  {
    set h | h in history :: h.episodeId
  }

  /** No review after position `i` is about the same episode. */
  ghost predicate IsLastFor(reviews: seq<ReviewRecord>, i: int) {
    0 <= i < |reviews|
    && forall j :: i < j < |reviews| ==> reviews[j].episodeId != reviews[i].episodeId
  }

  /** The position of the last review of `id`, or -1 when there is none. */
  function LastIndexOf(reviews: seq<ReviewRecord>, id: string): (k: int)
    ensures -1 <= k < |reviews|
    ensures k == -1 <==> forall i :: 0 <= i < |reviews| ==> reviews[i].episodeId != id
    ensures k >= 0 ==> reviews[k].episodeId == id && IsLastFor(reviews, k)
    decreases |reviews|
  {
    if reviews == [] then -1
    else if reviews[|reviews| - 1].episodeId == id then |reviews| - 1
    else
      var k := LastIndexOf(reviews[..|reviews| - 1], id);
      assert forall i :: 0 <= i < |reviews| - 1 ==> reviews[..|reviews| - 1][i] == reviews[i];
      k
  }

  /** `new Map(reviews.map(r => [r.episode_id, r.rating]))`: insertion in
      order, so the last review of an episode wins. */
  function RatingMap(reviews: seq<ReviewRecord>): (m: map<string, int>)
    ensures forall id :: id in m <==> LastIndexOf(reviews, id) >= 0
    ensures forall id :: id in m ==> m[id] == reviews[LastIndexOf(reviews, id)].rating
    decreases |reviews|
  {
    if reviews == [] then map[]
    else
      var last := reviews[|reviews| - 1];
      RatingMap(reviews[..|reviews| - 1])[last.episodeId := last.rating]
  }

  /** `ratings.get(id)`: `undefined` when the episode has no review. */
  function Lookup(ratings: map<string, int>, id: string): Option<int> {
    if id in ratings then Some(ratings[id]) else None
  }

  /** `{ ...episode, listened: listened.has(id), rating: ratings.get(id) }`. */
  function Annotate(e: Episode, listened: set<string>, ratings: map<string, int>): Episode {
    e.(listened := Some(e.id in listened), rating := Lookup(ratings, e.id))
  }

  /** The episode `e` with its annotation replaced and nothing else changed. */
  ghost predicate SameExceptAnnotation(a: Episode, b: Episode) {
    a.(listened := None, rating := None) == b.(listened := None, rating := None)
  }

  /** The rating the last review of `id` in `reviews` carries, if any: the
      independent statement of what `RatingMap` looks up. */
  ghost predicate IsLastRating(reviews: seq<ReviewRecord>, id: string, r: Option<int>) {
    if exists i :: 0 <= i < |reviews| && reviews[i].episodeId == id then
      exists i :: IsLastFor(reviews, i) && reviews[i].episodeId == id && r == Some(reviews[i].rating)
    else r == None
  }

  /** Looking up the rating map gives the rating of the last review of the
      episode in input order, and `undefined` when it has no review. */
  lemma LookupIsLastRating(reviews: seq<ReviewRecord>, id: string)
    ensures IsLastRating(reviews, id, Lookup(RatingMap(reviews), id))
  {
    var k := LastIndexOf(reviews, id);
    if k >= 0 {
      assert IsLastFor(reviews, k) && reviews[k].episodeId == id;
    }
  }

  /** Reviews ordered newest first, as `GET /api/reviews` returns them. */
  ghost predicate NewestFirst(reviews: seq<ReviewRecord>) {
    forall i, j :: 0 <= i < j < |reviews| ==> reviews[i].timestamp >= reviews[j].timestamp
  }

  /** Because the server sends reviews newest first and the map keeps the
      last one, an episode reviewed several times is annotated with the
      rating of its OLDEST review. */
  lemma {:induction false} NewestFirstGivesOldestRating(reviews: seq<ReviewRecord>, id: string)
    requires NewestFirst(reviews)
    requires exists i :: 0 <= i < |reviews| && reviews[i].episodeId == id
    ensures exists i :: 0 <= i < |reviews| && reviews[i].episodeId == id
                        && Lookup(RatingMap(reviews), id) == Some(reviews[i].rating)
                        && forall j :: 0 <= j < |reviews| && reviews[j].episodeId == id ==>
                             reviews[i].timestamp <= reviews[j].timestamp
  {
    var k := LastIndexOf(reviews, id);
    var m := RatingMap(reviews);
    assert id in m && m[id] == reviews[k].rating;
    LastIsOldest(reviews, k);
  }

  /** Over a newest-first list, the last review of an episode is its oldest. */
  lemma LastIsOldest(reviews: seq<ReviewRecord>, k: int)
    requires NewestFirst(reviews)
    requires IsLastFor(reviews, k)
    ensures forall j :: 0 <= j < |reviews| && reviews[j].episodeId == reviews[k].episodeId ==>
              reviews[k].timestamp <= reviews[j].timestamp
  {
    forall j | 0 <= j < |reviews| && reviews[j].episodeId == reviews[k].episodeId
      ensures reviews[k].timestamp <= reviews[j].timestamp
    {
      if j < k {
        assert reviews[j].timestamp >= reviews[k].timestamp;
      }
    }
  }

  /** Concretely: a 5-star review written after a 2-star one, sent newest
      first, leaves the episode showing 2 stars. */
  lemma ReratedEpisodeShowsFirstRating()
    ensures Lookup(RatingMap([Rated("e1", 5, 200), Rated("e1", 2, 100)]), "e1")
            == Some(2)
  {
    var rs := [Rated("e1", 5, 200), Rated("e1", 2, 100)];
    assert LastIndexOf(rs, "e1") == 1;
  }
}

=== FILE: episode_select.dfy ===
/**
  The episode picker of the Log dialog (app/components/EpisodeSelect.tsx):
  the five most recent episodes of a show, a loading and an empty message,
  an error banner, and a "View All Episodes" link when the page is full.
  Durations use the shared `Duration.FormatDuration`.
 */
module EpisodeSelect {
  import opened Wrappers
  import opened Records
  import Duration

  /** `getShowEpisodes(showId, 5)` */
  const FetchLimit: nat := 5

  const LoadError: string := "Failed to load episodes"

  datatype SelectState = SelectState(episodes: seq<Episode>, isLoading: bool, error: Option<string>)

  function Initial(): SelectState {
    SelectState([], false, None)
  }

  /** The start of `fetchEpisodes`, run on mount and whenever `showId`
      changes. */
  function BeginFetch(s: SelectState): (s': SelectState)
    ensures s'.isLoading && s'.error.None? && s'.episodes == s.episodes
  {
    s.(isLoading := true, error := None)
  }

  /** The rest of `fetchEpisodes` once the request settled (a non-ok
      response throws): the list on success, the error banner on failure,
      and `isLoading` cleared by the `finally` in both cases. */
  function FinishFetch(s: SelectState, res: Response<seq<Episode>>): (s': SelectState)
    ensures !s'.isLoading
    ensures res.Ok? ==> s'.episodes == res.body && s'.error == s.error
    ensures !res.Ok? ==> s'.episodes == s.episodes && s'.error == Some(LoadError)
  {
    match res
    case Ok(eps) => s.(episodes := eps, isLoading := false)
    case _ => s.(error := Some(LoadError), isLoading := false)
  }

  /** What the list area shows. */
  datatype Display =
    | LoadingMessage
    | NoEpisodes
    | EpisodeList(items: seq<Episode>, durations: seq<string>, viewAll: bool)

  function Render(s: SelectState): (d: Display)
    ensures d.LoadingMessage? <==> s.isLoading
    ensures d.NoEpisodes? <==> !s.isLoading && |s.episodes| == 0
    ensures d.EpisodeList? ==>
              d.items == s.episodes && |d.durations| == |s.episodes|
              && (forall i :: 0 <= i < |s.episodes| ==>
                    d.durations[i] == Duration.FormatDuration(s.episodes[i].durationMs))
              && (d.viewAll <==> |s.episodes| == FetchLimit)
  {
    if s.isLoading then LoadingMessage
    else if |s.episodes| == 0 then NoEpisodes
    else
      EpisodeList(s.episodes,
                  seq(|s.episodes|, i requires 0 <= i < |s.episodes| =>
                    Duration.FormatDuration(s.episodes[i].durationMs)),
                  |s.episodes| == FetchLimit)
  }

  /** A failed fetch from any state ends with the error banner, no loading
      message, and the episodes that were there before; a fetch that
      returns nothing shows "No episodes found". */
  lemma FetchOutcomes(s: SelectState, res: Response<seq<Episode>>)
    ensures var s' := FinishFetch(BeginFetch(s), res);
            !Render(s').LoadingMessage?
            && (!res.Ok? ==> s'.error == Some(LoadError) && s'.episodes == s.episodes)
            && (res.Ok? ==> s'.error.None? && (Render(s').NoEpisodes? <==> res.body == []))
  {
  }

  /** The server returns at most the requested five episodes, so "View All
      Episodes" appears exactly when the page came back full, which says
      nothing about whether the show has more. */
  lemma ViewAllExactlyWhenPageFull(s: SelectState, body: seq<Episode>)
    requires |body| <= FetchLimit
    ensures var d := Render(FinishFetch(BeginFetch(s), Ok(body)));
            (d.EpisodeList? && d.viewAll) <==> |body| == FetchLimit
  {
  }
}

=== FILE: episodes_page.dfy ===
/**
  The episodes page (app/episodes/page.tsx): the full, unfiltered episode
  list annotated with listened flags and ratings, single-episode updates
  after a successful request, the search box, and the per-row buttons.
 */
module EpisodesPage {
  import opened Wrappers
  import opened Records
  import opened Enrichment
  import opened Seqs
  import opened Text

  // ---------------------------------------------------------------------
  // Loading the list
  // ---------------------------------------------------------------------

  /** The mapping at the end of `fetchEpisodes`: every episode annotated,
      none dropped, none reordered. */
  function EnrichEpisodes(data: seq<Episode>, history: seq<HistoryRecord>,
                          ratings: seq<ReviewRecord>): (r: seq<Episode>)
    ensures |r| == |data|
    ensures forall i :: 0 <= i < |data| ==>
              SameExceptAnnotation(r[i], data[i])
              && r[i].listened == Some(data[i].id in ListenedIds(history))
              && IsLastRating(ratings, data[i].id, r[i].rating)
  {
    var listened := ListenedIds(history);
    var map_ := RatingMap(ratings);
    forall id | true
      ensures IsLastRating(ratings, id, Lookup(map_, id))
    {
      LookupIsLastRating(ratings, id);
    }
    seq(|data|, i requires 0 <= i < |data| => Annotate(data[i], listened, map_))
  }

  /** Annotating is a projection: doing it again with the same history and
      ratings changes nothing. */
  lemma EnrichIsIdempotent(data: seq<Episode>, history: seq<HistoryRecord>, ratings: seq<ReviewRecord>)
    ensures EnrichEpisodes(EnrichEpisodes(data, history, ratings), history, ratings)
            == EnrichEpisodes(data, history, ratings)
  {
  }

  datatype PageState = PageState(
    episodes: seq<Episode>,
    isLoading: bool,
    searchQuery: string,
    isReviewModalOpen: bool,
    selectedEpisode: Option<Episode>)

  /** `fetchEpisodes` once its three requests (made one after another) have
      settled: the list is replaced only when all three succeeded; a failure
      throws past the `finally`, which clears `isLoading`. */
  function FetchEpisodes(s: PageState, episodesRes: Response<seq<Episode>>,
                         historyRes: Response<seq<HistoryRecord>>,
                         ratingsRes: Response<seq<ReviewRecord>>): (s': PageState)
    ensures !s'.isLoading
    ensures !(episodesRes.Ok? && historyRes.Ok? && ratingsRes.Ok?) ==> s'.episodes == s.episodes
    ensures episodesRes.Ok? && historyRes.Ok? && ratingsRes.Ok? ==>
              s'.episodes == EnrichEpisodes(episodesRes.body, historyRes.body, ratingsRes.body)
    ensures s'.(episodes := s.episodes, isLoading := s.isLoading) == s
  {
    if episodesRes.Ok? && historyRes.Ok? && ratingsRes.Ok? then
      s.(episodes := EnrichEpisodes(episodesRes.body, historyRes.body, ratingsRes.body), isLoading := false)
    else
      s.(isLoading := false)
  }

  // ---------------------------------------------------------------------
  // Single-episode updates
  // ---------------------------------------------------------------------

  /** `handleMarkAsListened(id)` after its request settled. */
  function HandleMarkAsListened(episodes: seq<Episode>, id: string, outcome: Outcome): (r: seq<Episode>)
    ensures |r| == |episodes|
    ensures !outcome.Ok() ==> r == episodes
    ensures forall i :: 0 <= i < |episodes| && episodes[i].id != id ==> r[i] == episodes[i]
    ensures outcome.Ok() ==>
              forall i :: 0 <= i < |episodes| && episodes[i].id == id ==>
                r[i].listened == Some(true) && r[i].(listened := episodes[i].listened) == episodes[i]
  {
    if outcome.Ok() then
      seq(|episodes|, i requires 0 <= i < |episodes| =>
        if episodes[i].id == id then episodes[i].(listened := Some(true)) else episodes[i])
    else episodes
  }

  datatype Completion = Returned | Threw

  datatype SubmitReviewResult = SubmitReviewResult(
    request: Option<ReviewPost>, episodes: seq<Episode>, completion: Completion)

  /** `handleSubmitReview(rating, review)`: nothing without a selected
      episode; otherwise a request with the trimmed review, and on an ok
      response the new rating on every entry with the selected id. A non-ok
      response (or a rejected request) throws before any update. */
  function HandleSubmitReview(episodes: seq<Episode>, selected: Option<Episode>, rating: int,
                              review: string, outcome: Outcome): (r: SubmitReviewResult)
    ensures selected.None? ==> r == SubmitReviewResult(None, episodes, Returned)
    ensures selected.Some? ==> r.request == Some(ReviewPost(selected.value.id, rating, Trim(review)))
    ensures selected.Some? && !outcome.Ok() ==> r.episodes == episodes && r.completion == Threw
    ensures selected.Some? && outcome.Ok() ==>
              r.completion == Returned && |r.episodes| == |episodes|
              && forall i :: 0 <= i < |episodes| ==>
                   r.episodes[i] == (if episodes[i].id == selected.value.id
                                     then episodes[i].(rating := Some(rating)) else episodes[i])
  {
    match selected
    case None => SubmitReviewResult(None, episodes, Returned)
    case Some(sel) =>
      var request := Some(ReviewPost(sel.id, rating, Trim(review)));
      if outcome.Ok() then
        SubmitReviewResult(request, seq(|episodes|, i requires 0 <= i < |episodes| =>
          if episodes[i].id == sel.id then episodes[i].(rating := Some(rating)) else episodes[i]), Returned)
      else
        SubmitReviewResult(request, episodes, Threw)
  }

  /** `handleReview(episode)`: select the episode and open the modal. */
  function HandleReview(s: PageState, e: Episode): (s': PageState)
    ensures s'.selectedEpisode == Some(e) && s'.isReviewModalOpen
    ensures s'.episodes == s.episodes
  {
    s.(selectedEpisode := Some(e), isReviewModalOpen := true)
  }

  /** The modal's `onClose`: close it and forget the selection. */
  function CloseReviewModal(s: PageState): (s': PageState)
    ensures s'.selectedEpisode.None? && !s'.isReviewModalOpen
    ensures s'.episodes == s.episodes
  {
    s.(selectedEpisode := None, isReviewModalOpen := false)
  }

  // ---------------------------------------------------------------------
  // Search and buttons
  // ---------------------------------------------------------------------

  /** Name or description contains the query, ignoring case. */
  predicate MatchesQuery(e: Episode, query: string) {
    Contains(Lower(e.name), Lower(query)) || Contains(Lower(e.description), Lower(query))
  }

  function QueryFilter(query: string): Episode -> bool {
    e => MatchesQuery(e, query)
  }

  /** `filteredEpisodes`: the whole list for an empty query. */
  function FilteredEpisodes(episodes: seq<Episode>, query: string): (r: seq<Episode>)
    ensures query == "" ==> r == episodes
    ensures query != "" ==> forall e :: e in r ==> e in episodes && MatchesQuery(e, query)
  {
    if query == "" then episodes else Filter(QueryFilter(query), episodes)
  }

  /** A non-empty query shows exactly the matching episodes, in list order. */
  lemma SearchKeepsExactlyMatches(episodes: seq<Episode>, query: string)
    requires query != ""
    ensures var r := FilteredEpisodes(episodes, query);
            var idx := KeptIndices(QueryFilter(query), episodes);
            |r| == |idx| && StrictlyIncreasing(idx)
            && (forall j :: 0 <= j < |idx| ==> idx[j] < |episodes| && r[j] == episodes[idx[j]])
            && (forall i :: 0 <= i < |episodes| ==> (i in idx <==> MatchesQuery(episodes[i], query)))
  {
    FilterIsKeptIndices(QueryFilter(query), episodes);
  }

  /** `!episode.listened` */
  predicate ShowsMarkAsListened(e: Episode) {
    !TruthyBool(e.listened)
  }

  /** `episode.listened && !episode.rating` */
  predicate ShowsRateEpisode(e: Episode) {
    TruthyBool(e.listened) && !TruthyInt(e.rating)
  }

  /** The row offers at most one action, and after a successful
      mark-as-listened the rows of that episode offer "Rate Episode" exactly
      when they have no rating yet. */
  lemma ButtonsFollowMarkAsListened(episodes: seq<Episode>, id: string, i: int)
    requires 0 <= i < |episodes| && episodes[i].id == id
    ensures !(ShowsMarkAsListened(episodes[i]) && ShowsRateEpisode(episodes[i]))
    ensures var r := HandleMarkAsListened(episodes, id, Success);
            !ShowsMarkAsListened(r[i]) && (ShowsRateEpisode(r[i]) <==> !TruthyInt(episodes[i].rating))
  {
  }

  /** After a successful review with a rating of 1 to 5, no row of that
      episode offers an action any more once it has been listened to. */
  lemma RatedRowOffersNoRating(episodes: seq<Episode>, e: Episode, rating: int, review: string, i: int)
    requires 1 <= rating <= 5
    requires 0 <= i < |episodes| && episodes[i].id == e.id
    ensures !ShowsRateEpisode(HandleSubmitReview(episodes, Some(e), rating, review, Success).episodes[i])
  {
  }
}

=== FILE: grouping.dfy ===
/**
  Grouping a list by a string key with `reduce` into an object of arrays
  (`if (!acc[k]) acc[k] = []; acc[k].push(x)`), then listing the groups,
  and looking a group up by name with `find(...)?.items || []`. The order of
  the groups is not modelled: `Object.entries` lists integer-like keys first.
 */
module Grouping {
  import opened Wrappers
  import opened Seqs

  datatype Group<T> = Group(name: string, items: seq<T>)

  function KeyIs<T>(key: T -> string, name: string): T -> bool {
    (x: T) => key(x) == name
  }

  /** The items whose key is `name`, in input order. */
  function WithKey<T>(xs: seq<T>, key: T -> string, name: string): seq<T> {
    Filter(KeyIs(key, name), xs)
  }

  /** The sum of the group sizes. */
  function TotalSize<T>(gs: seq<Group<T>>): nat
    decreases |gs|
  {
    if gs == [] then 0 else TotalSize(gs[..|gs| - 1]) + |gs[|gs| - 1].items|
  }

  /** The position of the group called `name`, or -1. */
  function IndexOfName<T>(gs: seq<Group<T>>, name: string): (k: int)
    ensures -1 <= k < |gs|
    ensures k >= 0 ==> gs[k].name == name
    ensures k == -1 <==> forall i :: 0 <= i < |gs| ==> gs[i].name != name
    decreases |gs|
  {
    if gs == [] then -1
    else if gs[|gs| - 1].name == name then |gs| - 1
    else IndexOfName(gs[..|gs| - 1], name)
  }

  /** One step of the reduce: push `x` onto its group, creating the group at
      the end when it is the first item with that key. */
  function AddItem<T>(gs: seq<Group<T>>, key: T -> string, x: T): seq<Group<T>> {
    var k := IndexOfName(gs, key(x));
    if k >= 0 then gs[k := Group(gs[k].name, gs[k].items + [x])]
    else gs + [Group(key(x), [x])]
  }

  /** `gs` partitions `xs` by key: group names are distinct, each group holds
      exactly the items with its name in input order and is not empty, every
      item has a group, and the sizes add up to the length of `xs`. */
  ghost predicate IsGrouping<T>(gs: seq<Group<T>>, xs: seq<T>, key: T -> string) {
    DistinctNames(gs) && HoldTheirItems(gs, xs, key) && EveryItemHasGroup(gs, xs, key)
    && TotalSize(gs) == |xs|
  }

  ghost predicate DistinctNames<T>(gs: seq<Group<T>>) {
    forall i, j :: 0 <= i < j < |gs| ==> gs[i].name != gs[j].name
  }

  ghost predicate HoldTheirItems<T>(gs: seq<Group<T>>, xs: seq<T>, key: T -> string) {
    forall i :: 0 <= i < |gs| ==> gs[i].items == WithKey(xs, key, gs[i].name) && gs[i].items != []
  }

  ghost predicate EveryItemHasGroup<T>(gs: seq<Group<T>>, xs: seq<T>, key: T -> string) {
    forall j :: 0 <= j < |xs| ==> IndexOfName(gs, key(xs[j])) >= 0
  }

  /** The reduce over `xs`. */
  function GroupBy<T>(xs: seq<T>, key: T -> string): (gs: seq<Group<T>>)
    ensures IsGrouping(gs, xs, key)
    decreases |xs|
  {
    if xs == [] then []
    else
      var ys := xs[..|xs| - 1];
      var gs := GroupBy(ys, key);
      assert xs == ys + [xs[|xs| - 1]];
      AddItemKeepsGrouping(gs, ys, key, xs[|xs| - 1]);
      AddItem(gs, key, xs[|xs| - 1])
  }

  lemma {:induction false} TotalSizeSnoc<T>(gs: seq<Group<T>>, g: Group<T>)
    ensures TotalSize(gs + [g]) == TotalSize(gs) + |g.items|
  {
    assert (gs + [g])[..|gs|] == gs;
  }

  lemma {:induction false} TotalSizeUpdate<T>(gs: seq<Group<T>>, k: int, g: Group<T>)
    requires 0 <= k < |gs|
    ensures TotalSize(gs[k := g]) == TotalSize(gs) - |gs[k].items| + |g.items|
    decreases |gs|
  {
    var n := |gs| - 1;
    if k < n {
      assert gs[k := g][..n] == gs[..n][k := g];
      TotalSizeUpdate(gs[..n], k, g);
    } else {
      assert gs[k := g][..n] == gs[..n];
    }
  }

  lemma AddItemKeepsGrouping<T>(gs: seq<Group<T>>, ys: seq<T>, key: T -> string, x: T)
    requires IsGrouping(gs, ys, key)
    ensures IsGrouping(AddItem(gs, key, x), ys + [x], key)
  {
    if IndexOfName(gs, key(x)) < 0 {
      AddNewGroup(gs, ys, key, x);
    } else {
      AddToGroup(gs, ys, key, x);
    }
  }

  /** Extending the list extends exactly the group of the new item. */
  lemma WithKeySnoc<T>(ys: seq<T>, key: T -> string, x: T)
    ensures forall name :: WithKey(ys + [x], key, name)
                           == WithKey(ys, key, name) + (if key(x) == name then [x] else [])
  {
    forall name
      ensures WithKey(ys + [x], key, name) == WithKey(ys, key, name) + (if key(x) == name then [x] else [])
    {
      FilterSnoc(KeyIs(key, name), ys, x);
    }
  }

  lemma AddNewGroup<T>(gs: seq<Group<T>>, ys: seq<T>, key: T -> string, x: T)
    requires IsGrouping(gs, ys, key)
    requires IndexOfName(gs, key(x)) < 0
    ensures IsGrouping(gs + [Group(key(x), [x])], ys + [x], key)
  {
    var g := Group(key(x), [x]);
    NewNameKeepsNamesDistinct(gs, g);
    NewGroupHoldsItsItems(gs, ys, key, x);
    NewGroupCoversItems(gs, ys, key, x);
    TotalSizeSnoc(gs, g);
  }

  lemma NewNameKeepsNamesDistinct<T>(gs: seq<Group<T>>, g: Group<T>)
    requires DistinctNames(gs)
    requires IndexOfName(gs, g.name) < 0
    ensures DistinctNames(gs + [g])
  {
    var r := gs + [g];
    forall i, j | 0 <= i < j < |r| ensures r[i].name != r[j].name {
      assert r[i] == gs[i];
      if j < |gs| {
        assert r[j] == gs[j];
      }
    }
  }

  /** No item of `ys` carries a name that has no group. */
  lemma UngroupedNameHasNoItems<T>(gs: seq<Group<T>>, ys: seq<T>, key: T -> string, name: string)
    requires EveryItemHasGroup(gs, ys, key)
    requires IndexOfName(gs, name) < 0
    ensures WithKey(ys, key, name) == []
  {
    FilterEmptyIff(KeyIs(key, name), ys);
  }

  lemma NewGroupHoldsItsItems<T>(gs: seq<Group<T>>, ys: seq<T>, key: T -> string, x: T)
    requires HoldTheirItems(gs, ys, key) && EveryItemHasGroup(gs, ys, key)
    requires IndexOfName(gs, key(x)) < 0
    ensures HoldTheirItems(gs + [Group(key(x), [x])], ys + [x], key)
  {
    var xs := ys + [x];
    var r := gs + [Group(key(x), [x])];
    WithKeySnoc(ys, key, x);
    UngroupedNameHasNoItems(gs, ys, key, key(x));
    forall i | 0 <= i < |r| ensures r[i].items == WithKey(xs, key, r[i].name) && r[i].items != [] {
      if i < |gs| {
        assert r[i] == gs[i];
      }
    }
  }

  lemma NewGroupCoversItems<T>(gs: seq<Group<T>>, ys: seq<T>, key: T -> string, x: T)
    requires EveryItemHasGroup(gs, ys, key)
    ensures EveryItemHasGroup(gs + [Group(key(x), [x])], ys + [x], key)
  {
    var xs := ys + [x];
    var r := gs + [Group(key(x), [x])];
    forall j | 0 <= j < |xs| ensures IndexOfName(r, key(xs[j])) >= 0 {
      if j < |ys| {
        var i := IndexOfName(gs, key(ys[j]));
        assert r[i].name == key(xs[j]);
      } else {
        assert r[|gs|].name == key(xs[j]);
      }
    }
  }

  lemma AddToGroup<T>(gs: seq<Group<T>>, ys: seq<T>, key: T -> string, x: T)
    requires IsGrouping(gs, ys, key)
    requires IndexOfName(gs, key(x)) >= 0
    ensures IsGrouping(AddItem(gs, key, x), ys + [x], key)
  {
    var k := IndexOfName(gs, key(x));
    var g := Group(gs[k].name, gs[k].items + [x]);
    assert AddItem(gs, key, x) == gs[k := g];
    PushKeepsNamesDistinct(gs, k, g);
    PushedGroupHoldsItsItems(gs, ys, key, x, k);
    PushedGroupsCoverItems(gs, ys, key, x, k);
    TotalSizeUpdate(gs, k, g);
  }

  lemma PushKeepsNamesDistinct<T>(gs: seq<Group<T>>, k: int, g: Group<T>)
    requires DistinctNames(gs)
    requires 0 <= k < |gs| && g.name == gs[k].name
    ensures DistinctNames(gs[k := g])
  {
  }

  lemma PushedGroupHoldsItsItems<T>(gs: seq<Group<T>>, ys: seq<T>, key: T -> string, x: T, k: int)
    requires HoldTheirItems(gs, ys, key) && DistinctNames(gs)
    requires 0 <= k < |gs| && gs[k].name == key(x)
    ensures HoldTheirItems(gs[k := Group(gs[k].name, gs[k].items + [x])], ys + [x], key)
  {
    var xs := ys + [x];
    var r := gs[k := Group(gs[k].name, gs[k].items + [x])];
    WithKeySnoc(ys, key, x);
    forall i | 0 <= i < |r| ensures r[i].items == WithKey(xs, key, r[i].name) && r[i].items != [] {
      if i != k {
        assert r[i] == gs[i];
        assert gs[i].name != gs[k].name;
      }
    }
  }

  lemma PushedGroupsCoverItems<T>(gs: seq<Group<T>>, ys: seq<T>, key: T -> string, x: T, k: int)
    requires EveryItemHasGroup(gs, ys, key)
    requires 0 <= k < |gs| && gs[k].name == key(x)
    ensures EveryItemHasGroup(gs[k := Group(gs[k].name, gs[k].items + [x])], ys + [x], key)
  {
    var xs := ys + [x];
    var r := gs[k := Group(gs[k].name, gs[k].items + [x])];
    forall j | 0 <= j < |xs| ensures IndexOfName(r, key(xs[j])) >= 0 {
      if j < |ys| {
        var i := IndexOfName(gs, key(ys[j]));
        assert r[i].name == key(xs[j]);
      } else {
        assert r[k].name == key(xs[j]);
      }
    }
  }

  /** `groups.find(g => g.name === name)?.items || []` (an empty array is
      truthy, so `|| []` only replaces a missing group). */
  function ItemsOf<T>(gs: seq<Group<T>>, name: string): (items: seq<T>)
    ensures IndexOfName(gs, name) < 0 ==> items == []
  {
    var k := FirstIndexOfName(gs, name);
    if k >= 0 then gs[k].items else []
  }

  /** The first group called `name`, as `find` returns it, or -1. */
  function FirstIndexOfName<T>(gs: seq<Group<T>>, name: string): (k: int)
    ensures -1 <= k < |gs|
    ensures k >= 0 ==> gs[k].name == name && forall i :: 0 <= i < k ==> gs[i].name != name
    ensures k == -1 <==> forall i :: 0 <= i < |gs| ==> gs[i].name != name
    decreases |gs|
  {
    if gs == [] then -1
    else if gs[0].name == name then 0
    else
      var k := FirstIndexOfName(gs[1..], name);
      if k < 0 then -1 else k + 1
  }

  /** Looking up any name in the grouping gives exactly the items with that
      key, in input order; a name no item has gives the empty list. */
  lemma ItemsOfGroupBy<T>(xs: seq<T>, key: T -> string, name: string)
    ensures ItemsOf(GroupBy(xs, key), name) == WithKey(xs, key, name)
  {
    var gs := GroupBy(xs, key);
    var k := FirstIndexOfName(gs, name);
    if k >= 0 {
      assert gs[k].items == WithKey(xs, key, name);
    } else if WithKey(xs, key, name) != [] {
      var y := WithKey(xs, key, name)[0];
      InFilter(KeyIs(key, name), xs, y);
      assert false;
    }
  }

  /** Every item lies in exactly one group, the one named by its key. */
  lemma EachItemInItsOwnGroup<T>(xs: seq<T>, key: T -> string, j: int)
    requires 0 <= j < |xs|
    ensures var gs := GroupBy(xs, key);
            forall i :: 0 <= i < |gs| ==> (xs[j] in gs[i].items <==> gs[i].name == key(xs[j]))
    ensures var gs := GroupBy(xs, key);
            exists i :: 0 <= i < |gs| && gs[i].name == key(xs[j])
  {
    var gs := GroupBy(xs, key);
    forall i | 0 <= i < |gs| ensures xs[j] in gs[i].items <==> gs[i].name == key(xs[j]) {
      InFilter(KeyIs(key, gs[i].name), xs, xs[j]);
    }
    var i := IndexOfName(gs, key(xs[j]));
    assert gs[i].name == key(xs[j]);
  }
}

=== FILE: home_feed.dfy ===
/**
  The home page's "New Episodes" feed (app/page.tsx): the episodes released
  in the last two days that still need the user's attention, annotated with
  their listened flag and rating, and the all-or-nothing refresh around it.
 */
module HomeFeed {
  import opened Wrappers
  import opened Records
  import opened Enrichment
  import opened Seqs

  const DayMs: int := 86_400_000

  /** The recency threshold: two days before `now`. */
  function TwoDaysAgo(now: int): int {
    now - 2 * DayMs
  }

  /** `new Date(release_date) >= twoDaysAgo`; an unparseable date compares
      false. */
  predicate IsRecent(e: Episode, now: int) {
    e.releaseDate.Some? && e.releaseDate.value >= TwoDaysAgo(now)
  }

  /** `isRecent && (!isListened || !rating)`. */
  predicate NeedsAttention(e: Episode, listened: set<string>, ratings: map<string, int>, now: int) {
    IsRecent(e, now) && (e.id !in listened || !TruthyInt(Lookup(ratings, e.id)))
  }

  function Keep(listened: set<string>, ratings: map<string, int>, now: int): Episode -> bool {
    e => NeedsAttention(e, listened, ratings, now)
  }

  /** `filterAndEnrichEpisodes(episodes, history, reviews)` at time `now`. */
  function FilterAndEnrichEpisodes(episodes: seq<Episode>, history: seq<HistoryRecord>,
                                   reviews: seq<ReviewRecord>, now: int): (feed: seq<Episode>)
    ensures |feed| <= |episodes|
    ensures forall e :: e in feed ==> IsRecent(e, now)
    ensures forall e :: e in feed ==> !Resolved(e)
    ensures forall e :: e in feed ==>
              e.listened == Some(e.id in ListenedIds(history))
              && e.rating == Lookup(RatingMap(reviews), e.id)
  {
    var listened := ListenedIds(history);
    var ratings := RatingMap(reviews);
    var kept := Filter(Keep(listened, ratings, now), episodes);
    seq(|kept|, i requires 0 <= i < |kept| => Annotate(kept[i], listened, ratings))
  }

  /** The positions of the input episodes that make it into the feed. */
  function FeedIndices(episodes: seq<Episode>, history: seq<HistoryRecord>,
                       reviews: seq<ReviewRecord>, now: int): seq<nat> {
    KeptIndices(Keep(ListenedIds(history), RatingMap(reviews), now), episodes)
  }

  /** The feed is an order-preserving subsequence of the annotated input:
      its j-th entry is the annotated input episode at the j-th position of
      a strictly increasing list of positions, and a position is on that list
      exactly when the episode is recent and not both listened and rated. */
  lemma FeedIsOrderedSelection(episodes: seq<Episode>, history: seq<HistoryRecord>,
                               reviews: seq<ReviewRecord>, now: int)
    ensures var feed := FilterAndEnrichEpisodes(episodes, history, reviews, now);
            var idx := FeedIndices(episodes, history, reviews, now);
            |feed| == |idx| && StrictlyIncreasing(idx)
            && (forall j :: 0 <= j < |idx| ==>
                  idx[j] < |episodes|
                  && feed[j] == Annotate(episodes[idx[j]], ListenedIds(history), RatingMap(reviews)))
            && (forall i :: 0 <= i < |episodes| ==>
                  (i in idx <==> NeedsAttention(episodes[i], ListenedIds(history), RatingMap(reviews), now)))
  {
    FilterIsKeptIndices(Keep(ListenedIds(history), RatingMap(reviews), now), episodes);
  }

  /** Completeness: every recent episode that is not in the listening
      history appears in the feed, annotated. */
  lemma FeedIsComplete(episodes: seq<Episode>, history: seq<HistoryRecord>,
                       reviews: seq<ReviewRecord>, now: int, i: int)
    requires 0 <= i < |episodes|
    requires IsRecent(episodes[i], now)
    requires forall h :: h in history ==> h.episodeId != episodes[i].id
    ensures Annotate(episodes[i], ListenedIds(history), RatingMap(reviews))
            in FilterAndEnrichEpisodes(episodes, history, reviews, now)
  {
    FeedIsOrderedSelection(episodes, history, reviews, now);
    var idx := FeedIndices(episodes, history, reviews, now);
    var j :| 0 <= j < |idx| && idx[j] == i;
    assert FilterAndEnrichEpisodes(episodes, history, reviews, now)[j]
           == Annotate(episodes[i], ListenedIds(history), RatingMap(reviews));
  }

  function Ep(id: string, released: int): Episode {
    Episode(id, "", "", "", Some(released), 0, "", [], None, None, None)
  }

  /** A recent episode that was listened to but not rated stays in the feed;
      one released ten days ago is dropped. */
  lemma ListenedButUnratedStays(now: int)
    ensures FilterAndEnrichEpisodes([Ep("e1", now), Ep("e2", now - 10 * DayMs)],
                                    [HistoryRecord("e1", "")], [], now)
            == [Ep("e1", now).(listened := Some(true), rating := None)]
  {
    var eps := [Ep("e1", now), Ep("e2", now - 10 * DayMs)];
    var history := [HistoryRecord("e1", "")];
    assert ListenedIds(history) == {"e1"};
    assert RatingMap([]) == map[];
    var p := Keep({"e1"}, map[], now);
    assert p(eps[0]) && !p(eps[1]);
    assert Filter(p, eps) == [eps[0]] by {
      assert Filter(p, eps[1..]) == [];
    }
  }

  /** Once the same episode also has a review, it is resolved and leaves the
      feed. */
  lemma ListenedAndRatedLeaves(now: int)
    ensures FilterAndEnrichEpisodes([Ep("e1", now)], [HistoryRecord("e1", "")],
                                    [Rated("e1", 4, now)], now) == []
  {
    var reviews := [Rated("e1", 4, now)];
    assert LastIndexOf(reviews, "e1") == 0;
    assert ListenedIds([HistoryRecord("e1", "")]) == {"e1"};
  }

  /** The two-day window is inclusive: an episode released exactly two days
      ago is recent, one released a millisecond earlier is not. */
  lemma RecencyBoundary(e: Episode, now: int)
    ensures IsRecent(e.(releaseDate := Some(now - 2 * DayMs)), now)
    ensures !IsRecent(e.(releaseDate := Some(now - 2 * DayMs - 1)), now)
    ensures !IsRecent(e.(releaseDate := None), now)
  {
  }

  // ---------------------------------------------------------------------
  // The refresh controller
  // ---------------------------------------------------------------------

  datatype FeedState = FeedState(episodes: seq<Episode>, isRefreshing: bool)

  /** `setIsRefreshing(true)` on entry to `refreshEpisodes`. */
  function BeginRefresh(s: FeedState): FeedState {
    s.(isRefreshing := true)
  }

  /** The three responses all came back ok and parsed. */
  predicate AllOk(episodesRes: Response<seq<Episode>>, historyRes: Response<seq<HistoryRecord>>,
                  reviewsRes: Response<seq<ReviewRecord>>) {
    episodesRes.Ok? && historyRes.Ok? && reviewsRes.Ok?
  }

  /** The rest of `refreshEpisodes` once the three requests have settled:
      the store is replaced only when all three succeeded, and the
      `finally` block clears `isRefreshing` either way. */
  function FinishRefresh(s: FeedState, now: int, episodesRes: Response<seq<Episode>>,
                         historyRes: Response<seq<HistoryRecord>>,
                         reviewsRes: Response<seq<ReviewRecord>>): (s': FeedState)
    ensures !s'.isRefreshing
    ensures !AllOk(episodesRes, historyRes, reviewsRes) ==> s'.episodes == s.episodes
    ensures AllOk(episodesRes, historyRes, reviewsRes) ==>
              forall e :: e in s'.episodes ==> IsRecent(e, now) && !Resolved(e)
    ensures AllOk(episodesRes, historyRes, reviewsRes) ==>
              s'.episodes == FilterAndEnrichEpisodes(episodesRes.body, historyRes.body, reviewsRes.body, now)
    ensures !AllOk(episodesRes, historyRes, reviewsRes) ==> s' == s.(isRefreshing := false)
  {
    if AllOk(episodesRes, historyRes, reviewsRes) then
      FeedState(FilterAndEnrichEpisodes(episodesRes.body, historyRes.body, reviewsRes.body, now), false)
    else
      s.(isRefreshing := false)
  }

  /** A whole refresh cycle. */
  function RefreshEpisodes(s: FeedState, now: int, episodesRes: Response<seq<Episode>>,
                           historyRes: Response<seq<HistoryRecord>>,
                           reviewsRes: Response<seq<ReviewRecord>>): FeedState {
    FinishRefresh(BeginRefresh(s), now, episodesRes, historyRes, reviewsRes)
  }

  /** All-or-nothing: a failed cycle leaves the store as it was, a successful
      one replaces it with the fresh feed, and `isRefreshing` is false after
      either. */
  lemma RefreshIsAllOrNothing(s: FeedState, now: int, episodesRes: Response<seq<Episode>>,
                              historyRes: Response<seq<HistoryRecord>>,
                              reviewsRes: Response<seq<ReviewRecord>>)
    ensures var s' := RefreshEpisodes(s, now, episodesRes, historyRes, reviewsRes);
            !s'.isRefreshing
            && (AllOk(episodesRes, historyRes, reviewsRes) ==>
                  s'.episodes == FilterAndEnrichEpisodes(episodesRes.body, historyRes.body, reviewsRes.body, now))
            && (!AllOk(episodesRes, historyRes, reviewsRes) ==> s' == s.(isRefreshing := false))
  {
  }
}

=== FILE: post_box.dfy ===
/**
  The "Log" dialog of the timeline (app/components/PostBox.tsx): a
  three-step flow (pick a show, pick an episode, rate it) inside one modal,
  with the library of shows loaded once on mount. The rating dialog stays
  mounted, so its own state is part of this component's state.
 */
module PostBox {
  import opened Wrappers
  import opened Records
  import ReviewModal

  datatype Step = ShowStep | EpisodeStep | ReviewStep

  datatype PostBoxState = PostBoxState(
    isModalOpen: bool,
    userShows: seq<Show>,
    isLoading: bool,
    error: Option<string>,
    selectedShow: Option<Show>,
    selectedEpisode: Option<Episode>,
    step: Step,
    modal: ReviewModal.ModalState)

  const LoadShowsError: string := "Failed to load your shows"
  const SubmitError: string := "Failed to submit review"

  /** The state on mount. */
  function Initial(): PostBoxState {
    PostBoxState(false, [], false, None, None, None, ShowStep, ReviewModal.Initial())
  }

  /** Closed, back at the first step, nothing selected. */
  predicate IsReset(s: PostBoxState) {
    !s.isModalOpen && s.step == ShowStep && s.selectedShow.None? && s.selectedEpisode.None?
  }

  // ---------------------------------------------------------------------
  // Loading the library
  // ---------------------------------------------------------------------

  /** The start of `fetchShows`. */
  function BeginLoadShows(s: PostBoxState): (s': PostBoxState)
    ensures s'.isLoading && s'.error.None?
    ensures s'.userShows == s.userShows && s'.step == s.step && s'.isModalOpen == s.isModalOpen
  {
    s.(isLoading := true, error := None)
  }

  /** `fetchShows` once `getUserShows` settled (it throws on a non-ok
      response). */
  function FinishLoadShows(s: PostBoxState, res: Response<seq<Show>>): (s': PostBoxState)
    ensures !s'.isLoading
    ensures res.Ok? ==> s'.userShows == res.body && s'.error == s.error
    ensures !res.Ok? ==> s'.userShows == s.userShows && s'.error == Some(LoadShowsError)
    ensures s'.(userShows := s.userShows, error := s.error, isLoading := s.isLoading) == s
  {
    match res
    case Ok(shows) => s.(userShows := shows, isLoading := false)
    case _ => s.(error := Some(LoadShowsError), isLoading := false)
  }

  /** `disabled={isLoading || userShows.length === 0}` */
  predicate LogDisabled(s: PostBoxState) {
    s.isLoading || |s.userShows| == 0
  }

  // ---------------------------------------------------------------------
  // Steps
  // ---------------------------------------------------------------------

  /** `handleShowSelect(show)` */
  function ShowSelect(s: PostBoxState, show: Show): (s': PostBoxState)
    ensures s'.step == EpisodeStep && s'.selectedShow == Some(show)
    ensures s'.isModalOpen == s.isModalOpen && s'.selectedEpisode == s.selectedEpisode
  {
    s.(selectedShow := Some(show), step := EpisodeStep)
  }

  /** `handleEpisodeSelect(episode)` */
  function EpisodeSelect(s: PostBoxState, e: Episode): (s': PostBoxState)
    ensures s'.step == ReviewStep && s'.selectedEpisode == Some(e) && s'.isModalOpen
    ensures s'.selectedShow == s.selectedShow
  {
    s.(selectedEpisode := Some(e), step := ReviewStep, isModalOpen := true)
  }

  /** The "Back" button of the episode step. */
  function Back(s: PostBoxState): (s': PostBoxState)
    ensures s'.step == ShowStep && s'.selectedShow == s.selectedShow && s'.isModalOpen == s.isModalOpen
  {
    s.(step := ShowStep)
  }

  /** `handleModalClose` */
  function Close(s: PostBoxState): (s': PostBoxState)
    ensures IsReset(s')
    ensures s'.userShows == s.userShows && s'.error == s.error && s'.modal == s.modal
  {
    s.(isModalOpen := false, step := ShowStep, selectedShow := None, selectedEpisode := None)
  }

  // ---------------------------------------------------------------------
  // Submitting
  // ---------------------------------------------------------------------

  /** The state after the synchronous part of `handleSubmit`, and the request
      it sent, if any. */
  datatype SubmitStart = SubmitStart(state: PostBoxState, request: Option<ReviewPost>)

  /** `handleSubmit(rating, review)` up to its `await`: nothing without a
      selected episode; otherwise the error is cleared and the review is sent
      as typed (not trimmed). */
  function BeginSubmit(s: PostBoxState, rating: int, review: string): (r: SubmitStart)
    ensures s.selectedEpisode.None? ==> r == SubmitStart(s, None)
    ensures s.selectedEpisode.Some? ==>
              r.request == Some(ReviewPost(s.selectedEpisode.value.id, rating, review))
              && r.state == s.(error := None)
  {
    match s.selectedEpisode
    case None => SubmitStart(s, None)
    case Some(e) => SubmitStart(s.(error := None), Some(ReviewPost(e.id, rating, review)))
  }

  /** The rest of `handleSubmit` once `submitReview` settled. */
  function SettleSubmit(s: PostBoxState, outcome: Outcome): (s': PostBoxState)
    ensures outcome.Ok() ==> IsReset(s') && s'.error == s.error
    ensures !outcome.Ok() ==> s' == s.(error := Some(SubmitError))
  {
    if outcome.Ok() then Close(s) else s.(error := Some(SubmitError))
  }

  datatype SubmitResult = SubmitResult(state: PostBoxState, request: Option<ReviewPost>)

  /** `handleSubmit` on its own: a success resets the dialog like a close, a
      failure keeps the selections and shows the error. */
  function HandleSubmit(s: PostBoxState, rating: int, review: string, outcome: Outcome): (r: SubmitResult)
    ensures s.selectedEpisode.None? ==> r == SubmitResult(s, None)
    ensures s.selectedEpisode.Some? ==> r.request == Some(ReviewPost(s.selectedEpisode.value.id, rating, review))
    ensures s.selectedEpisode.Some? && outcome.Ok() ==>
              r.state == Close(s).(error := None)
    ensures s.selectedEpisode.Some? && !outcome.Ok() ==>
              r.state == s.(error := Some(SubmitError))
  {
    var start := BeginSubmit(s, rating, review);
    if start.request.None? then SubmitResult(s, None)
    else SubmitResult(SettleSubmit(start.state, outcome), start.request)
  }

  /** A submit from the rating dialog: it calls `onSubmit`, which sends the
      request, and at once `onClose`, which resets the dialog; the request
      settles afterwards. So the dialog closes and loses its selections
      whatever the outcome, and a failure only leaves the error message. */
  function SubmitThroughModal(s: PostBoxState, outcome: Outcome): (s': PostBoxState)
    ensures !ReviewModal.SubmitEnabled(s.modal) ==> s' == s
    ensures ReviewModal.SubmitEnabled(s.modal) ==> IsReset(s') && s'.userShows == s.userShows
    ensures ReviewModal.SubmitEnabled(s.modal) && s.selectedEpisode.Some? ==>
              s'.error == (if outcome.Ok() then None else Some(SubmitError))
    ensures s'.modal == s.modal
  {
    if !ReviewModal.SubmitEnabled(s.modal) then s
    else
      var start := BeginSubmit(s, s.modal.rating, s.modal.review);
      var closed := Close(start.state);
      if start.request.Some? then SettleSubmit(closed, outcome) else closed
  }

  // ---------------------------------------------------------------------
  // Dialogs and the event loop
  // ---------------------------------------------------------------------

  /** `isModalOpen && step === 'show'` */
  predicate ShowDialogVisible(s: PostBoxState) {
    s.isModalOpen && s.step == ShowStep
  }

  /** `isModalOpen && step === 'episode' && selectedShow` */
  predicate EpisodeDialogVisible(s: PostBoxState) {
    s.isModalOpen && s.step == EpisodeStep && s.selectedShow.Some?
  }

  /** `isOpen={isModalOpen && step === 'review'}` */
  predicate ReviewDialogVisible(s: PostBoxState) {
    s.isModalOpen && s.step == ReviewStep
  }

  function VisibleDialogs(s: PostBoxState): nat {
    (if ShowDialogVisible(s) then 1 else 0)
    + (if EpisodeDialogVisible(s) then 1 else 0)
    + (if ReviewDialogVisible(s) then 1 else 0)
  }

  /** What the user (or the mount effect) can do. An event whose control is
      not on screen changes nothing. */
  datatype Event =
    | LoadStart
    | LoadSettled(res: Response<seq<Show>>)
    | ClickLog
    | PickShow(show: Show)
    | PickEpisode(episode: Episode)
    | GoBack
    | Cancel
    | ModalInput(input: ReviewModal.Input)
    | ModalCancel
    | ModalSubmit(outcome: Outcome)

  /** The states the flow can reach: a closed dialog is reset, each step has
      the selections it needs, an episode is selected only at the last step,
      and the rating dialog's rating is 0 or a star value. */
  predicate Consistent(s: PostBoxState) {
    (!s.isModalOpen ==> s.step == ShowStep && s.selectedShow.None? && s.selectedEpisode.None?)
    && (s.step == EpisodeStep ==> s.selectedShow.Some?)
    && (s.step == ReviewStep ==> s.selectedShow.Some? && s.selectedEpisode.Some?)
    && (s.selectedEpisode.Some? ==> s.step == ReviewStep)
    && 0 <= s.modal.rating <= 5
  }

  function Next(s: PostBoxState, ev: Event): (s': PostBoxState)
    ensures Consistent(s) ==> Consistent(s')
    ensures !ev.ModalInput? ==> s'.modal == s.modal
  {
    match ev
    case LoadStart => BeginLoadShows(s)
    case LoadSettled(res) => FinishLoadShows(s, res)
    case ClickLog => if LogDisabled(s) then s else s.(isModalOpen := true)
    case PickShow(show) =>
      if ShowDialogVisible(s) && show in s.userShows then ShowSelect(s, show) else s
    case PickEpisode(e) => if EpisodeDialogVisible(s) then EpisodeSelect(s, e) else s
    case GoBack => if EpisodeDialogVisible(s) then Back(s) else s
    case Cancel => if ShowDialogVisible(s) || EpisodeDialogVisible(s) then Close(s) else s
    case ModalInput(input) =>
      if ReviewDialogVisible(s) then s.(modal := ReviewModal.Apply(s.modal, input)) else s
    case ModalCancel => if ReviewDialogVisible(s) then Close(s) else s
    case ModalSubmit(outcome) => if ReviewDialogVisible(s) then SubmitThroughModal(s, outcome) else s
  }

  /** The state after a run of events from mount. */
  function Run(events: seq<Event>): (s: PostBoxState)
    ensures Consistent(s)
    decreases |events|
  {
    if events == [] then Initial()
    else Next(Run(events[..|events| - 1]), events[|events| - 1])
  }

  /** In every reachable state the open dialog is exactly one of the three,
      and while the rating dialog is open an episode is selected, so the
      early return of `handleSubmit` never fires from the dialog and every
      request it sends carries a rating from 1 to 5. */
  lemma OneDialogAtATime(events: seq<Event>)
    ensures var s := Run(events);
            VisibleDialogs(s) == (if s.isModalOpen then 1 else 0)
            && (ReviewDialogVisible(s) ==> s.selectedEpisode.Some?)
            && (ReviewDialogVisible(s) && ReviewModal.SubmitEnabled(s.modal) ==>
                  var r := BeginSubmit(s, s.modal.rating, s.modal.review).request;
                  r.Some? && 1 <= r.value.rating <= 5)
  {
  }

  /** The rating dialog is never unmounted, so a second post starts with the
      rating and text of the first: only the dialog's own inputs change it. */
  lemma DialogRemembersLastRating(s: PostBoxState, outcome: Outcome, show: Show, e: Episode)
    requires Consistent(s) && ReviewDialogVisible(s) && ReviewModal.SubmitEnabled(s.modal)
    requires !LogDisabled(s) && show in s.userShows
    ensures var s1 := Next(s, ModalSubmit(outcome));
            var s2 := Next(Next(Next(s1, ClickLog), PickShow(show)), PickEpisode(e));
            ReviewDialogVisible(s2) && s2.modal == s.modal && ReviewModal.SubmitEnabled(s2.modal)
  {
  }
}

=== FILE: recent_episodes.dfy ===
/**
  The feed list on the home page (app/components/RecentEpisodes.tsx): the
  list-level update-or-remove rule, and the per-episode item that moves from
  unlistened to listened to rated through two requests.
 */
module RecentEpisodes {
  import opened Wrappers
  import opened Records
  import opened Seqs
  import ReviewModal

  // ---------------------------------------------------------------------
  // The list: handleEpisodeUpdate
  // ---------------------------------------------------------------------

  function NotId(id: string): Episode -> bool {
    (e: Episode) => e.id != id
  }

  /** `handleEpisodeUpdate(updated)`: a resolved episode (listened and rated)
      leaves the list; otherwise it replaces every entry with its id. */
  function HandleEpisodeUpdate(episodes: seq<Episode>, updated: Episode): (r: seq<Episode>)
    ensures Resolved(updated) ==> forall e :: e in r ==> e in episodes && e.id != updated.id
    ensures !Resolved(updated) ==>
              |r| == |episodes|
              && forall i :: 0 <= i < |episodes| ==>
                   r[i] == (if episodes[i].id == updated.id then updated else episodes[i])
  {
    if Resolved(updated) then
      Filter(NotId(updated.id), episodes)
    else
      seq(|episodes|, i requires 0 <= i < |episodes| =>
        if episodes[i].id == updated.id then updated else episodes[i])
  }

  /** Removal keeps every other entry, in order, and only those. */
  lemma RemovalKeepsOthersInOrder(episodes: seq<Episode>, updated: Episode)
    requires Resolved(updated)
    ensures var r := HandleEpisodeUpdate(episodes, updated);
            var idx := KeptIndices(NotId(updated.id), episodes);
            |r| == |idx| && StrictlyIncreasing(idx)
            && (forall j :: 0 <= j < |idx| ==> idx[j] < |episodes| && r[j] == episodes[idx[j]])
            && (forall i :: 0 <= i < |episodes| ==> (i in idx <==> episodes[i].id != updated.id))
  {
    FilterIsKeptIndices(NotId(updated.id), episodes);
  }

  // ---------------------------------------------------------------------
  // One item: EpisodeItem
  // ---------------------------------------------------------------------

  datatype ItemState = ItemState(isListened: Option<bool>, rating: Option<int>, isReviewModalOpen: bool)

  /** The item's state when it is first rendered for `e`. */
  function InitItem(e: Episode): ItemState {
    ItemState(e.listened, e.rating, false)
  }

  /** A step of the item: its new local state and the episode it reports to
      the list through `onUpdate`, if any. */
  datatype ItemStep = ItemStep(state: ItemState, reported: Option<Episode>)

  /** `handleMarkAsListened` after its request settled: on an ok response the
      item is listened and reports a copy of its episode with
      `listened: true`; otherwise nothing happens. */
  function MarkAsListened(st: ItemState, episode: Episode, outcome: Outcome): (r: ItemStep)
    ensures outcome.Ok() ==> TruthyBool(r.state.isListened) && r.reported.Some?
    ensures outcome.Ok() ==> r.state.rating == st.rating && r.state.isReviewModalOpen == st.isReviewModalOpen
    ensures outcome.Ok() ==> r.reported.value.listened == Some(true)
                             && r.reported.value.(listened := episode.listened) == episode
    ensures !outcome.Ok() ==> r == ItemStep(st, None)
  {
    if outcome.Ok() then
      ItemStep(st.(isListened := Some(true)), Some(episode.(listened := Some(true))))
    else
      ItemStep(st, None)
  }

  /** `handleSubmitReview(rating)` after its request settled: on an ok
      response the item shows the rating, closes its modal and reports a copy
      of the episode prop with the rating; otherwise nothing happens. */
  function SubmitReview(st: ItemState, episode: Episode, rating: int, outcome: Outcome): (r: ItemStep)
    ensures outcome.Ok() ==> r.state.rating == Some(rating) && !r.state.isReviewModalOpen
                             && r.state.isListened == st.isListened
    ensures outcome.Ok() ==> r.reported == Some(episode.(rating := Some(rating)))
    ensures !outcome.Ok() ==> r == ItemStep(st, None)
  {
    if outcome.Ok() then
      ItemStep(st.(rating := Some(rating), isReviewModalOpen := false), Some(episode.(rating := Some(rating))))
    else
      ItemStep(st, None)
  }

  /** The "Rate Episode" button's click. */
  function OpenReviewModal(st: ItemState): ItemState {
    st.(isReviewModalOpen := true)
  }

  /** The modal's `onClose`. */
  function CloseReviewModal(st: ItemState): ItemState {
    st.(isReviewModalOpen := false)
  }

  /** A submit from the item's modal: the modal calls `onSubmit`, whose
      request is then in flight, and at once `onClose`; the request settles
      afterwards. */
  function SubmitThroughModal(st: ItemState, episode: Episode, m: ReviewModal.ModalState,
                              outcome: Outcome): (r: ItemStep)
    ensures ReviewModal.SubmitEnabled(m) ==> !r.state.isReviewModalOpen
    ensures ReviewModal.SubmitEnabled(m) && !outcome.Ok() ==>
              r == ItemStep(st.(isReviewModalOpen := false), None)
    ensures !ReviewModal.SubmitEnabled(m) ==> r == ItemStep(st, None)
  {
    if ReviewModal.SubmitEnabled(m) then
      SubmitReview(CloseReviewModal(st), episode, m.rating, outcome)
    else
      ItemStep(st, None)
  }

  /** The cover: `images?.[0]?.url || image_url`, with the placeholder icon
      (`None`) when both are missing or empty. */
  function CoverUrl(e: Episode): (r: Option<string>)
    ensures r.Some? ==> r.value != ""
    ensures r.None? <==> (|e.images| == 0 || e.images[0].url == "")
                         && (e.imageUrl.None? || e.imageUrl.value == "")
    ensures |e.images| > 0 && e.images[0].url != "" ==> r == Some(e.images[0].url)
    ensures r.Some? && (|e.images| == 0 || e.images[0].url == "") ==> r == e.imageUrl
  {
    if |e.images| > 0 && e.images[0].url != "" then Some(e.images[0].url)
    else if e.imageUrl.Some? && e.imageUrl.value != "" then e.imageUrl
    else None
  }

  /** `!isListened` */
  predicate ListenButtonShown(st: ItemState) {
    !TruthyBool(st.isListened)
  }

  /** `isListened && !rating` */
  predicate RateButtonShown(st: ItemState) {
    TruthyBool(st.isListened) && !TruthyInt(st.rating)
  }

  /** `rating &&`: the stars */
  predicate StarsShown(st: ItemState) {
    TruthyInt(st.rating)
  }

  /** The item's state machine: unlistened shows only the listen button; a
      successful mark-as-listened hides it and shows the rate button exactly
      when there is no rating yet; a successful review with a rating of 1 to
      5 hides the rate button and shows the stars. Failures change nothing. */
  lemma ItemTransitions(e: Episode, outcome: Outcome, rating: int)
    requires !TruthyBool(e.listened)
    requires 1 <= rating <= 5
    ensures ListenButtonShown(InitItem(e)) && !RateButtonShown(InitItem(e))
    ensures var s1 := MarkAsListened(InitItem(e), e, outcome).state;
            (outcome.Ok() ==> !ListenButtonShown(s1) && (RateButtonShown(s1) <==> !TruthyInt(e.rating)))
            && (!outcome.Ok() ==> s1 == InitItem(e))
    ensures var s1 := MarkAsListened(InitItem(e), e, Success).state;
            var s2 := SubmitReview(s1, e, rating, outcome).state;
            (outcome.Ok() ==> !ListenButtonShown(s2) && !RateButtonShown(s2) && StarsShown(s2))
            && (!outcome.Ok() ==> s2 == s1)
  {
  }

  /** Listening to and then rating an unrated feed episode removes it from the
      feed: the first report replaces the entry with its listened copy, which
      the re-rendered item receives as its prop, and the second report is
      resolved. */
  lemma ListenThenRateLeavesFeed(episodes: seq<Episode>, k: int, rating: int)
    requires 0 <= k < |episodes|
    requires !TruthyInt(episodes[k].rating)
    requires 1 <= rating <= 5
    ensures var e := episodes[k];
            var step1 := MarkAsListened(InitItem(e), e, Success);
            var list1 := HandleEpisodeUpdate(episodes, step1.reported.value);
            var step2 := SubmitReview(step1.state, list1[k], rating, Success);
            var list2 := HandleEpisodeUpdate(list1, step2.reported.value);
            list1[k] == e.(listened := Some(true))
            && (forall x :: x in list2 ==> x.id != e.id)
            && list2 == Filter(NotId(e.id), episodes)
  {
    var e := episodes[k];
    var step1 := MarkAsListened(InitItem(e), e, Success);
    var list1 := HandleEpisodeUpdate(episodes, step1.reported.value);
    FilterSameOnKept(episodes, list1, e.id);
  }

  /** Two lists that differ only in entries with the id `id` lose the same
      entries to the removal of that id, and keep the same ones. */
  lemma {:induction false} FilterSameOnKept(a: seq<Episode>, b: seq<Episode>, id: string)
    requires |a| == |b|
    requires forall i :: 0 <= i < |a| ==> (a[i].id == id <==> b[i].id == id)
    requires forall i :: 0 <= i < |a| && a[i].id != id ==> a[i] == b[i]
    ensures Filter(NotId(id), a) == Filter(NotId(id), b)
    decreases |a|
  {
    if a != [] {
      FilterSameOnKept(a[1..], b[1..], id);
    }
  }
}

=== FILE: records.dfy ===
/**
  The records the front end receives from the REST API: episodes,
  listening-history entries and reviews. Times are integer milliseconds
  since the epoch; a release date that does not parse is `None`.
 */
module Records {
  import opened Wrappers

  datatype Image = Image(url: string, height: int, width: int)

  /** An episode as listed by `GET /api/episodes`, optionally annotated with
      `listened` and `rating` on the client. */
  datatype Episode = Episode(
    id: string,
    name: string,
    showName: string,
    showId: string,
    releaseDate: Option<int>,
    durationMs: int,
    description: string,
    images: seq<Image>,
    imageUrl: Option<string>,
    listened: Option<bool>,
    rating: Option<int>)

  /** One row of `GET /api/listening-history`. */
  datatype HistoryRecord = HistoryRecord(episodeId: string, listenedDate: string)

  /** One row of `GET /api/reviews`: the review joined with its episode's
      name and image and its show's name (the server sends them newest
      first). */
  datatype ReviewRecord = ReviewRecord(
    id: int,
    episodeId: string,
    rating: int,
    review: string,
    timestamp: int,
    name: string,
    showName: string,
    imageUrl: Option<string>)

  /** A review of `episodeId` with the given rating and time and nothing else. */
  function Rated(episodeId: string, rating: int, timestamp: int): (r: ReviewRecord)
    ensures r.episodeId == episodeId && r.rating == rating && r.timestamp == timestamp
  {
    ReviewRecord(0, episodeId, rating, "", timestamp, "", "", None)
  }

  /** A show in the user's library (`GET /api/shows`). */
  datatype Show = Show(id: string, name: string, publisher: string, totalEpisodes: int, images: seq<Image>)

  /** The body of `POST /api/reviews`. */
  datatype ReviewPost = ReviewPost(episodeId: string, rating: int, review: string)

  /** `listened` is truthy and `rating` is truthy: nothing is left to do. */
  predicate Resolved(e: Episode) {
    TruthyBool(e.listened) && TruthyInt(e.rating)
  }
}

=== FILE: review_modal.dfy ===
/**
  The rating dialog (app/components/ReviewModal.tsx): a rating that starts
  at 0 and is set only by one of five star buttons, a submit button that is
  disabled while no star is chosen, and a submit that calls the parent's
  `onSubmit` and then `onClose`.
 */
module ReviewModal {
  import opened Wrappers

  /** The value a star button sets: the buttons are `[1, 2, 3, 4, 5]`. */
  type StarValue = v: int | 1 <= v <= 5 witness 1

  datatype ModalState = ModalState(rating: int, review: string)

  /** `useState(0)` and `useState('')`. */
  function Initial(): ModalState {
    ModalState(0, "")
  }

  /** Clicking star `v`. */
  function ClickStar(m: ModalState, v: StarValue): (m': ModalState)
    ensures m'.rating == v && m'.review == m.review
  {
    m.(rating := v)
  }

  /** Typing in the review box. */
  function EditReview(m: ModalState, text: string): (m': ModalState)
    ensures m'.rating == m.rating && m'.review == text
  {
    m.(review := text)
  }

  /** The user's inputs to an open modal. */
  datatype Input = Star(v: StarValue) | Type(text: string)

  function Apply(m: ModalState, input: Input): ModalState {
    match input
    case Star(v) => ClickStar(m, v)
    case Type(text) => EditReview(m, text)
  }

  /** The state after a run of inputs from the initial state. */
  function Run(inputs: seq<Input>): ModalState
    decreases |inputs|
  {
    if inputs == [] then Initial()
    else Apply(Run(inputs[..|inputs| - 1]), inputs[|inputs| - 1])
  }

  /** Every reachable rating is 0 (nothing chosen yet) or a star value, and
      it is 0 only while no star has been clicked. */
  lemma {:induction false} RatingStaysInRange(inputs: seq<Input>)
    ensures 0 <= Run(inputs).rating <= 5
    ensures Run(inputs).rating == 0 <==> forall i :: 0 <= i < |inputs| ==> inputs[i].Type?
    decreases |inputs|
  {
    if inputs != [] {
      var prefix := inputs[..|inputs| - 1];
      RatingStaysInRange(prefix);
      assert forall i :: 0 <= i < |prefix| ==> prefix[i] == inputs[i];
    }
  }

  /** `disabled={rating === 0}` */
  predicate SubmitEnabled(m: ModalState) {
    m.rating != 0
  }

  /** The callbacks a submit makes, in order. */
  datatype Call = OnSubmit(rating: int, review: string) | OnClose

  /** `handleSubmit`: `onSubmit(rating, review)` and then `onClose()`, with no
      regard to how `onSubmit` fares; nothing while the button is disabled. */
  function Submit(m: ModalState): (calls: seq<Call>)
    ensures !SubmitEnabled(m) ==> calls == []
    ensures SubmitEnabled(m) ==> |calls| == 2 && calls[0] == OnSubmit(m.rating, m.review)
    ensures SubmitEnabled(m) ==> calls[|calls| - 1] == OnClose
  {
    if SubmitEnabled(m) then [OnSubmit(m.rating, m.review), OnClose] else []
  }

  /** Every rating the modal ever hands to `onSubmit` is between 1 and 5. */
  lemma SubmittedRatingIsValid(inputs: seq<Input>)
    ensures forall c :: c in Submit(Run(inputs)) && c.OnSubmit? ==> 1 <= c.rating <= 5
  {
    RatingStaysInRange(inputs);
  }

  /** Star `v` is drawn highlighted: `rating >= value`. */
  predicate Highlighted(m: ModalState, v: int) {
    m.rating >= v
  }

  /** How many of the stars `1..n` are highlighted. */
  function HighlightedAmong(m: ModalState, n: nat): nat {
    if n == 0 then 0 else HighlightedAmong(m, n - 1) + (if Highlighted(m, n) then 1 else 0)
  }

  /** For a rating of 0 to 5 exactly `rating` of the five stars light up. */
  lemma {:induction false} HighlightedCountIsRating(m: ModalState)
    requires 0 <= m.rating <= 5
    ensures HighlightedAmong(m, 5) == m.rating
  {
    assert HighlightedAmong(m, 1) == (if m.rating >= 1 then 1 else 0);
    assert HighlightedAmong(m, 2) == (if m.rating >= 2 then 2 else HighlightedAmong(m, 1));
    assert HighlightedAmong(m, 3) == (if m.rating >= 3 then 3 else HighlightedAmong(m, 2));
    assert HighlightedAmong(m, 4) == (if m.rating >= 4 then 4 else HighlightedAmong(m, 3));
  }

  /** What the component renders: nothing at all while closed. */
  datatype View = Hidden | Dialog(highlighted: seq<bool>, submitEnabled: bool)

  function Render(isOpen: bool, m: ModalState): (v: View)
    ensures !isOpen <==> v == Hidden
    ensures v.Dialog? ==> |v.highlighted| == 5
                          && (forall i :: 0 <= i < 5 ==> (v.highlighted[i] <==> m.rating >= i + 1))
                          && (v.submitEnabled <==> m.rating != 0)
  {
    if !isOpen then Hidden
    else Dialog(seq(5, i requires 0 <= i < 5 => Highlighted(m, i + 1)), SubmitEnabled(m))
  }
}

=== FILE: reviews_page.dfy ===
/**
  The public reviews page (app/reviews/page.tsx): the reviews grouped by
  show name once they arrive, and a show filter whose empty value means
  "All Shows".
 */
module ReviewsPage {
  import opened Wrappers
  import opened Records
  import opened Grouping

  function ShowNameOf(r: ReviewRecord): string {
    r.showName
  }

  datatype PageState = PageState(
    reviews: seq<ReviewRecord>,
    shows: seq<Group<ReviewRecord>>,
    selectedShow: string)

  function Initial(): PageState {
    PageState([], [], "")
  }

  /** The mount effect once `getReviews` settled: on success both the list
      and its grouping are stored; a failure rejects the promise and nothing
      changes. */
  function Loaded(s: PageState, res: Response<seq<ReviewRecord>>): (s': PageState)
    ensures res.Ok? ==> s'.reviews == res.body && IsGrouping(s'.shows, res.body, ShowNameOf)
    ensures !res.Ok? ==> s' == s
    ensures s'.selectedShow == s.selectedShow
  {
    if res.Ok? then s.(reviews := res.body, shows := GroupBy(res.body, ShowNameOf)) else s
  }

  /** `handleShowChange(showName)` */
  function HandleShowChange(s: PageState, showName: string): (s': PageState)
    ensures s'.selectedShow == showName && s'.reviews == s.reviews && s'.shows == s.shows
  {
    s.(selectedShow := showName)
  }

  /** `selectedShowReviews` */
  function SelectedShowReviews(s: PageState): seq<ReviewRecord> {
    ItemsOf(s.shows, s.selectedShow)
  }

  /** `(selectedShow ? selectedShowReviews : reviews)` */
  function Displayed(s: PageState): (r: seq<ReviewRecord>)
    ensures s.selectedShow == "" ==> r == s.reviews
    ensures s.selectedShow != "" ==> r == SelectedShowReviews(s)
  {
    if s.selectedShow == "" then s.reviews else SelectedShowReviews(s)
  }

  /** After a successful load, "All Shows" lists every review in server
      order, and a chosen show lists exactly that show's reviews in server
      order, or nothing for a name no review carries. */
  lemma DisplayedIsFilterByShow(s: PageState, body: seq<ReviewRecord>, showName: string)
    ensures var s' := HandleShowChange(Loaded(s, Ok(body)), showName);
            Displayed(s') == (if showName == "" then body else WithKey(body, ShowNameOf, showName))
  {
    ItemsOfGroupBy(body, ShowNameOf, showName);
  }
}

=== FILE: root_middleware.dfy ===
/**
  The session gate in middleware.ts at the project root: without a session
  every page except exactly "/auth" and "/verify" sends the visitor to
  "/auth"; with a session "/auth" itself sends them home. The matcher keeps
  Next.js build assets and the favicon away from the gate.
 */
module RootMiddleware {
  import opened Text
  import opened Routing

  const AuthPage: string := "/auth"
  const VerifyPage: string := "/verify"
  const HomePage: string := "/"

  /** `['/auth', '/verify'].includes(pathname)`: exact comparison. */
  predicate IsOpenPage(path: string) {
    path in [AuthPage, VerifyPage]
  }

  function Decide(path: string, hasSession: bool): (d: Decision)
    ensures !hasSession ==> (d == Pass <==> path == AuthPage || path == VerifyPage)
    ensures !hasSession && d.Redirect? ==> d.target == AuthPage
    ensures hasSession ==> (d == Pass <==> path != AuthPage)
    ensures hasSession && d.Redirect? ==> d.target == HomePage
  {
    if !hasSession && !IsOpenPage(path) then Redirect(AuthPage)
    else if hasSession && path == AuthPage then Redirect(HomePage)
    else Pass
  }

  /** The verification page is reachable with or without a session. */
  lemma VerifyAlwaysPasses(hasSession: bool)
    ensures Decide(VerifyPage, hasSession) == Pass
  {
  }

  /** Matching is exact, so a page below "/auth", such as the sign-in
      callback, is sent back to "/auth" when there is no session. */
  lemma AuthCallbackIsRedirected()
    ensures Decide("/auth/callback", false) == Redirect(AuthPage)
  {
    assert "/auth/callback" != AuthPage by { assert |"/auth/callback"| != |AuthPage|; }
    assert "/auth/callback" != VerifyPage by { assert |"/auth/callback"| != |VerifyPage|; }
  }

  /** A redirect never leads to another redirect under the same session:
      "/auth" passes without a session and "/" passes with one. */
  lemma NoRedirectLoop(path: string, hasSession: bool)
    ensures var d := Decide(path, hasSession);
            d.Redirect? ==> Decide(d.target, hasSession) == Pass
  {
    assert HomePage != AuthPage by { assert |HomePage| != |AuthPage|; }
  }

  /** The negative lookahead of the matcher `/((?!_next/static|_next/image|favicon.ico).*)`
      applied to the path after its leading slash. The dot in `favicon.ico`
      is a regular-expression dot and stands for any character but a line
      terminator. */
  predicate ExcludedRest(rest: string) {
    IsPrefix("_next/static", rest)
    || IsPrefix("_next/image", rest)
    || (|rest| >= 11 && rest[..7] == "favicon" && !IsLineTerminator(rest[7]) && rest[8..11] == "ico")
  }

  /** The characters a JavaScript `.` does not match. */
  predicate IsLineTerminator(c: char) {
    c == '\n' || c == '\r' || c == '\U{2028}' || c == '\U{2029}'
  }

  predicate Matched(path: string) {
    |path| >= 1 && path[0] == '/' && !ExcludedRest(path[1..])
  }

  /** The gate as Next.js runs it. */
  function Gate(path: string, hasSession: bool): Decision {
    UnderMatcher(Matched(path), Decide(path, hasSession))
  }

  /** Build assets and the favicon are served without a session, while any
      other page is still gated. */
  lemma AssetsBypassTheGate(rest: string, hasSession: bool)
    ensures Gate("/_next/static/" + rest, hasSession) == Pass
    ensures Gate("/_next/image" + rest, hasSession) == Pass
    ensures Gate("/favicon.ico", hasSession) == Pass
  {
    assert ("/_next/static/" + rest)[1..] == "_next/static/" + rest;
    assert ("/_next/static/" + rest)[1..][..12] == "_next/static";
    assert ("/_next/image" + rest)[1..] == "_next/image" + rest;
    assert ("/_next/image" + rest)[1..][..11] == "_next/image";
    assert "/favicon.ico"[1..] == "favicon.ico";
  }

  /** Because of the regular-expression dot, a page called "/faviconXico" is
      outside the matcher too and is served without a session. */
  lemma FaviconDotMatchesAnyCharacter()
    ensures Gate("/faviconXico", false) == Pass
    ensures Gate("/favourites", false) == Redirect(AuthPage)
  {
    assert "/faviconXico"[1..] == "faviconXico";
    assert "/favourites"[1..] == "favourites";
    assert "favourites"[..7] != "favicon" by { assert "favourites"[4] != "favicon"[4]; }
    assert !IsPrefix("_next/static", "favourites") by { assert "favourites"[0] != '_'; }
    assert !IsPrefix("_next/image", "favourites") by { assert "favourites"[0] != '_'; }
    assert "/favourites" != AuthPage && "/favourites" != VerifyPage by {
      assert |"/favourites"| != |AuthPage| && |"/favourites"| != |VerifyPage|;
    }
  }
}

=== FILE: routing.dfy ===
/**
  What a Next.js middleware decides for one request: let it through, or
  answer with a redirect to another path of the same origin.
 */
module Routing {
  import opened Text

  datatype Decision = Pass | Redirect(target: string)

  /** A middleware under its `config.matcher`: requests the matcher does not
      select never reach it and pass untouched. */
  function UnderMatcher(matched: bool, d: Decision): Decision {
    if matched then d else Pass
  }

  /** `prefixes.some(p => path.startsWith(p))` */
  predicate StartsWithSome(path: string, prefixes: seq<string>)
    decreases |prefixes|
  {
    prefixes != [] && (IsPrefix(prefixes[0], path) || StartsWithSome(path, prefixes[1..]))
  }

  /** The `some` scan succeeds exactly when one of the prefixes starts the
      path. */
  lemma {:induction false} StartsWithSomeIffExists(path: string, prefixes: seq<string>)
    ensures StartsWithSome(path, prefixes) <==> exists i :: 0 <= i < |prefixes| && IsPrefix(prefixes[i], path)
    decreases |prefixes|
  {
    if prefixes != [] {
      StartsWithSomeIffExists(path, prefixes[1..]);
      if StartsWithSome(path, prefixes[1..]) {
        var i :| 0 <= i < |prefixes[1..]| && IsPrefix(prefixes[1..][i], path);
        assert IsPrefix(prefixes[i + 1], path);
      }
      if exists i :: 0 <= i < |prefixes| && IsPrefix(prefixes[i], path) {
        var i :| 0 <= i < |prefixes| && IsPrefix(prefixes[i], path);
        if i > 0 {
          assert IsPrefix(prefixes[1..][i - 1], path);
        }
      }
    }
  }
}

=== FILE: seqs.dfy ===
/**
  Order-preserving selection from a sequence, together with the indices of
  the kept elements, so that "the output is an order-preserving subsequence
  of the input, and contains exactly the elements satisfying p" can be
  stated and proved once.
 */
module Seqs {

  /** The elements of `xs` that satisfy `p`, in their original order
      (JavaScript `Array.prototype.filter`). */
  function Filter<T>(p: T -> bool, xs: seq<T>): (r: seq<T>)
    ensures |r| <= |xs|
    ensures forall i :: 0 <= i < |r| ==> p(r[i])
    ensures forall x :: x in r ==> x in xs
    decreases |xs|
  {
    if xs == [] then []
    else
      var rest := Filter(p, xs[1..]);
      if p(xs[0]) then [xs[0]] + rest else rest
  }

  /** Strictly increasing sequences of indices. */
  ghost predicate StrictlyIncreasing(idx: seq<nat>) {
    forall j, k :: 0 <= j < k < |idx| ==> idx[j] < idx[k]
  }

  /** The positions `i >= from` of `xs` whose element satisfies `p`, ascending. */
  function KeptFrom<T>(p: T -> bool, xs: seq<T>, from: nat): (idx: seq<nat>)
    requires from <= |xs|
    ensures forall j :: 0 <= j < |idx| ==> from <= idx[j] < |xs|
    ensures StrictlyIncreasing(idx)
    ensures forall i :: from <= i < |xs| ==> (p(xs[i]) <==> i in idx)
    decreases |xs| - from
  {
    if from == |xs| then []
    else
      var rest := KeptFrom(p, xs, from + 1);
      if p(xs[from]) then [from] + rest else rest
  }

  /** The positions of `xs` whose element satisfies `p`, ascending. */
  function KeptIndices<T>(p: T -> bool, xs: seq<T>): (idx: seq<nat>)
    ensures forall j :: 0 <= j < |idx| ==> idx[j] < |xs|
    ensures StrictlyIncreasing(idx)
    ensures forall i :: 0 <= i < |xs| ==> (p(xs[i]) <==> i in idx)
  {
    KeptFrom(p, xs, 0)
  }

  /** `Filter` keeps exactly the elements at `KeptIndices`, in that order:
      the filtered sequence is an order-preserving subsequence of the input
      that misses no element satisfying `p`. */
  lemma {:induction false} FilterIsKeptIndices<T>(p: T -> bool, xs: seq<T>)
    ensures |Filter(p, xs)| == |KeptIndices(p, xs)|
    ensures forall j :: 0 <= j < |Filter(p, xs)| ==>
              Filter(p, xs)[j] == xs[KeptIndices(p, xs)[j]]
  {
    FilterIsKeptFrom(p, xs, 0);
    assert xs[0..] == xs;
  }

  lemma {:induction false} FilterIsKeptFrom<T>(p: T -> bool, xs: seq<T>, from: nat)
    requires from <= |xs|
    ensures |Filter(p, xs[from..])| == |KeptFrom(p, xs, from)|
    ensures forall j :: 0 <= j < |Filter(p, xs[from..])| ==>
              Filter(p, xs[from..])[j] == xs[KeptFrom(p, xs, from)[j]]
    decreases |xs| - from
  {
    if from < |xs| {
      FilterIsKeptFrom(p, xs, from + 1);
      var rest := Filter(p, xs[from + 1..]);
      var kept := KeptFrom(p, xs, from + 1);
      assert xs[from..][1..] == xs[from + 1..];
      assert xs[from..][0] == xs[from];
      if p(xs[from]) {
        assert Filter(p, xs[from..]) == [xs[from]] + rest;
        assert KeptFrom(p, xs, from) == [from] + kept;
      } else {
        assert Filter(p, xs[from..]) == rest;
        assert KeptFrom(p, xs, from) == kept;
      }
    }
  }

  /** Filtering a list extended at the end extends the filtered list by the
      new element exactly when it is kept. */
  lemma {:induction false} FilterSnoc<T>(p: T -> bool, xs: seq<T>, x: T)
    ensures Filter(p, xs + [x]) == Filter(p, xs) + (if p(x) then [x] else [])
    decreases |xs|
  {
    if xs != [] {
      assert (xs + [x])[1..] == xs[1..] + [x];
      FilterSnoc(p, xs[1..], x);
    }
  }

  /** An element is in the filtered list exactly when it is in the list and
      is kept. */
  lemma {:induction false} InFilter<T>(p: T -> bool, xs: seq<T>, x: T)
    ensures x in Filter(p, xs) <==> x in xs && p(x)
    decreases |xs|
  {
    if xs != [] {
      InFilter(p, xs[1..], x);
      assert xs == [xs[0]] + xs[1..];
    }
  }

  /** Nothing is kept exactly when no element satisfies `p`. */
  lemma {:induction false} FilterEmptyIff<T>(p: T -> bool, xs: seq<T>)
    ensures Filter(p, xs) == [] <==> forall i :: 0 <= i < |xs| ==> !p(xs[i])
    decreases |xs|
  {
    if xs != [] {
      FilterEmptyIff(p, xs[1..]);
      assert forall i :: 1 <= i < |xs| ==> xs[i] == xs[1..][i - 1];
    }
  }

  lemma FilterSingleton<T>(p: T -> bool, x: T)
    ensures Filter(p, [x]) == if p(x) then [x] else []
  {
    assert [x][1..] == [];
  }
}

=== FILE: show_search.dfy ===
/**
  The show search box of the Log dialog (app/components/ShowSearch.tsx):
  each keystroke stores the term and filters the user's library by name or
  publisher, ignoring case. The blank test trims the term; the match does
  not.
 */
module ShowSearch {
  import opened Records
  import opened Seqs
  import opened Text

  datatype SearchState = SearchState(searchTerm: string, filteredShows: seq<Show>)

  function Initial(): SearchState {
    SearchState("", [])
  }

  /** Name or publisher contains the (untrimmed) term, ignoring case. */
  predicate MatchesTerm(show: Show, term: string) {
    Contains(Lower(show.name), Lower(term)) || Contains(Lower(show.publisher), Lower(term))
  }

  function TermFilter(term: string): Show -> bool {
    (show: Show) => MatchesTerm(show, term)
  }

  /** `handleSearch(term)` */
  function HandleSearch(userShows: seq<Show>, term: string): (s: SearchState)
    ensures s.searchTerm == term
    ensures Trim(term) == "" ==> s.filteredShows == []
    ensures forall show :: show in s.filteredShows ==> show in userShows && MatchesTerm(show, term)
  {
    if Trim(term) == "" then SearchState(term, [])
    else SearchState(term, Filter(TermFilter(term), userShows))
  }

  /** A term with a non-blank character yields exactly the matching shows of
      the library, in library order. */
  lemma SearchKeepsExactlyMatches(userShows: seq<Show>, term: string)
    requires Trim(term) != ""
    ensures var r := HandleSearch(userShows, term).filteredShows;
            var idx := KeptIndices(TermFilter(term), userShows);
            |r| == |idx| && StrictlyIncreasing(idx)
            && (forall j :: 0 <= j < |idx| ==> idx[j] < |userShows| && r[j] == userShows[idx[j]])
            && (forall i :: 0 <= i < |userShows| ==> (i in idx <==> MatchesTerm(userShows[i], term)))
  {
    FilterIsKeptIndices(TermFilter(term), userShows);
  }

  /** `searchTerm.trim() !== '' && filteredShows.length > 0` */
  predicate DropdownVisible(s: SearchState) {
    Trim(s.searchTerm) != "" && |s.filteredShows| > 0
  }

  /** The dropdown shows exactly when the term is not blank and some show in
      the library matches it; a term of spaces never shows it. */
  lemma DropdownIffSomeMatch(userShows: seq<Show>, term: string)
    ensures DropdownVisible(HandleSearch(userShows, term)) <==>
              !AllWhitespace(term)
              && exists i :: 0 <= i < |userShows| && MatchesTerm(userShows[i], term)
  {
    TrimEmptyIffBlank(term);
    FilterEmptyIff(TermFilter(term), userShows);
  }

  function Crab(): Show {
    Show("s1", "Crab", "Sea", 0, [])
  }

  lemma CrabLowered()
    ensures Lower(Crab().name) == "crab" && Lower(Crab().publisher) == "sea"
    ensures Lower("cr ") == "cr " && Lower("cr") == "cr"
  {
  }

  lemma NoSpacedTermInCrab()
    ensures !Contains("crab", "cr ") && !Contains("sea", "cr ")
  {
    assert "crab"[1..] == "rab" && "rab"[1..] == "ab";
    assert "crab"[..3] == "cra" && "rab"[..3] == "rab";
    ShorterContainsNothingLonger("ab", "cr ");
    assert !Contains("rab", "cr ");
    assert "sea"[1..] == "ea" && "sea"[..3] == "sea";
    ShorterContainsNothingLonger("ea", "cr ");
  }

  lemma CrTermsAreNotBlank()
    ensures Trim("cr ") != "" && Trim("cr") != ""
  {
    var spaced, bare := "cr ", "cr";
    assert spaced[0] == 'c' && bare[0] == 'c';
    VisibleFirstIsNotBlank(spaced);
    VisibleFirstIsNotBlank(bare);
  }

  lemma CrabFacts()
    ensures !MatchesTerm(Crab(), "cr ") && MatchesTerm(Crab(), "cr")
    ensures Trim("cr ") != "" && Trim("cr") != ""
  {
    CrabLowered();
    NoSpacedTermInCrab();
    assert IsPrefix("cr", "crab");
    CrTermsAreNotBlank();
  }

  /** The match uses the untrimmed term: with a trailing space, "cr " finds
      nothing in a library whose only show is "Crab" by "Sea", while "cr"
      finds it. */
  lemma TrailingSpaceDefeatsMatch()
    ensures HandleSearch([Crab()], "cr ").filteredShows == []
    ensures HandleSearch([Crab()], "cr").filteredShows == [Crab()]
  {
    CrabFacts();
    FilterSingleton(TermFilter("cr "), Crab());
    FilterSingleton(TermFilter("cr"), Crab());
  }
}

=== FILE: sorting.dfy ===
/**
  Sorting by an integer key, largest first: the newest-first order of the
  timeline (a stable JavaScript `sort` with `b - a`) and of
  `ORDER BY timestamp DESC`.
 */
module Sorting {
  import opened Seqs

  ghost predicate SortedDesc<T>(xs: seq<T>, key: T -> int) {
    forall i, j :: 0 <= i < j < |xs| ==> key(xs[i]) >= key(xs[j])
  }

  /** Insert `x` into a list sorted largest first, ahead of the entries whose
      key does not exceed its own. */
  function InsertDesc<T>(x: T, xs: seq<T>, key: T -> int): (r: seq<T>)
    requires SortedDesc(xs, key)
    ensures SortedDesc(r, key)
    ensures multiset(r) == multiset(xs) + multiset{x}
    ensures |r| == |xs| + 1
  {
    if xs == [] || key(xs[0]) <= key(x) then
      [x] + xs
    else
      var rest := InsertDesc(x, xs[1..], key);
      assert xs == [xs[0]] + xs[1..];
      HeadBoundsTail(xs, key);
      BoundSurvivesInsert(xs[0], x, xs[1..], rest, key);
      LeadingMaxKeepsSorted(xs[0], rest, key);
      [xs[0]] + rest
  }

  /** The head of a list sorted largest first bounds its tail. */
  lemma HeadBoundsTail<T>(xs: seq<T>, key: T -> int)
    requires xs != [] && SortedDesc(xs, key)
    ensures forall y :: y in xs[1..] ==> key(xs[0]) >= key(y)
  {
    forall y | y in xs[1..] ensures key(xs[0]) >= key(y) {
      var k :| 0 <= k < |xs[1..]| && xs[1..][k] == y;
      assert xs[k + 1] == y;
    }
  }

  /** A bound on a list and on an inserted element bounds the result. */
  lemma BoundSurvivesInsert<T>(b: T, x: T, xs: seq<T>, rest: seq<T>, key: T -> int)
    requires forall y :: y in xs ==> key(b) >= key(y)
    requires key(b) >= key(x)
    requires multiset(rest) == multiset(xs) + multiset{x}
    ensures forall y :: y in rest ==> key(b) >= key(y)
  {
    forall y | y in rest ensures key(b) >= key(y) {
      assert y in multiset(rest);
      if y != x {
        assert y in multiset(xs);
      }
    }
  }

  lemma LeadingMaxKeepsSorted<T>(x: T, xs: seq<T>, key: T -> int)
    requires SortedDesc(xs, key)
    requires forall y :: y in xs ==> key(x) >= key(y)
    ensures SortedDesc([x] + xs, key)
  {
    var r := [x] + xs;
    forall i, j | 0 <= i < j < |r| ensures key(r[i]) >= key(r[j]) {
      if i == 0 {
        assert r[j] == xs[j - 1];
        assert r[j] in xs;
      } else {
        assert r[i] == xs[i - 1] && r[j] == xs[j - 1];
      }
    }
  }

  /** Insertion sort, largest key first. */
  function SortDesc<T>(xs: seq<T>, key: T -> int): (r: seq<T>)
    ensures SortedDesc(r, key)
    ensures multiset(r) == multiset(xs)
    ensures |r| == |xs|
  {
    if xs == [] then []
    else
      assert xs == [xs[0]] + xs[1..];
      InsertDesc(xs[0], SortDesc(xs[1..], key), key)
  }

  /** The entries whose key is `k`. */
  function HasKey<T>(key: T -> int, k: int): T -> bool {
    x => key(x) == k
  }

  /** Inserting `x` adds it to the front of its own key's entries: every
      entry already there with the same key stays behind it. */
  lemma {:induction false} InsertGoesFirstAmongEqualKeys<T>(x: T, xs: seq<T>, key: T -> int, k: int)
    requires SortedDesc(xs, key)
    ensures Filter(HasKey(key, k), InsertDesc(x, xs, key))
            == (if key(x) == k then [x] else []) + Filter(HasKey(key, k), xs)
    decreases |xs|
  {
    var p := HasKey(key, k);
    if xs == [] || key(xs[0]) <= key(x) {
      assert ([x] + xs)[1..] == xs;
    } else {
      assert SortedDesc(xs[1..], key) by {
        forall i, j | 0 <= i < j < |xs[1..]| ensures key(xs[1..][i]) >= key(xs[1..][j]) {
          assert xs[1..][i] == xs[i + 1] && xs[1..][j] == xs[j + 1];
        }
      }
      var rest := InsertDesc(x, xs[1..], key);
      InsertGoesFirstAmongEqualKeys(x, xs[1..], key, k);
      assert InsertDesc(x, xs, key) == [xs[0]] + rest;
      assert ([xs[0]] + rest)[1..] == rest;
      if key(x) == k {
        assert !p(xs[0]);
      }
    }
  }

  /** The sort is stable: for every key, the entries with that key appear
      in the result in exactly their input order, as a stable JavaScript
      `sort` leaves them. */
  lemma {:induction false} SortIsStable<T>(xs: seq<T>, key: T -> int, k: int)
    ensures Filter(HasKey(key, k), SortDesc(xs, key)) == Filter(HasKey(key, k), xs)
    decreases |xs|
  {
    if xs != [] {
      SortIsStable(xs[1..], key, k);
      InsertGoesFirstAmongEqualKeys(xs[0], SortDesc(xs[1..], key), key, k);
    }
  }

  /** `xs.map(f)` */
  function Map<T>(f: T -> T, xs: seq<T>): (r: seq<T>)
    ensures |r| == |xs| && forall i :: 0 <= i < |xs| ==> r[i] == f(xs[i])
  {
    seq(|xs|, i requires 0 <= i < |xs| => f(xs[i]))
  }

  /** Updating entries without touching their keys commutes with sorting:
      the sorted view of the updated list is the updated sorted view. */
  lemma {:induction false} SortCommutesWithKeyPreservingMap<T>(f: T -> T, xs: seq<T>, key: T -> int)
    requires forall x :: key(f(x)) == key(x)
    ensures SortDesc(Map(f, xs), key) == Map(f, SortDesc(xs, key))
  {
    if xs != [] {
      var ys := Map(f, xs);
      assert ys[1..] == Map(f, xs[1..]);
      SortCommutesWithKeyPreservingMap(f, xs[1..], key);
      InsertCommutesWithKeyPreservingMap(f, xs[0], SortDesc(xs[1..], key), key);
    }
  }

  lemma {:induction false} InsertCommutesWithKeyPreservingMap<T>(f: T -> T, x: T, xs: seq<T>, key: T -> int)
    requires forall y :: key(f(y)) == key(y)
    requires SortedDesc(xs, key)
    ensures SortedDesc(Map(f, xs), key)
    ensures InsertDesc(f(x), Map(f, xs), key) == Map(f, InsertDesc(x, xs, key))
    decreases |xs|
  {
    MapKeepsSorted(f, xs, key);
    var ys := Map(f, xs);
    if xs != [] && key(xs[0]) > key(x) {
      assert ys[1..] == Map(f, xs[1..]);
      InsertCommutesWithKeyPreservingMap(f, x, xs[1..], key);
      assert key(ys[0]) > key(f(x));
      assert InsertDesc(f(x), ys, key) == [ys[0]] + InsertDesc(f(x), ys[1..], key);
      assert InsertDesc(x, xs, key) == [xs[0]] + InsertDesc(x, xs[1..], key);
      MapCons(f, xs[0], InsertDesc(x, xs[1..], key));
    } else {
      assert InsertDesc(x, xs, key) == [x] + xs;
      assert InsertDesc(f(x), ys, key) == [f(x)] + ys;
      MapCons(f, x, xs);
    }
  }

  lemma MapKeepsSorted<T>(f: T -> T, xs: seq<T>, key: T -> int)
    requires forall y :: key(f(y)) == key(y)
    requires SortedDesc(xs, key)
    ensures SortedDesc(Map(f, xs), key)
  {
    var ys := Map(f, xs);
    forall i, j | 0 <= i < j < |ys| ensures key(ys[i]) >= key(ys[j]) {
      assert key(ys[i]) == key(xs[i]) && key(ys[j]) == key(xs[j]);
    }
  }

  lemma MapCons<T>(f: T -> T, x: T, xs: seq<T>)
    ensures Map(f, [x] + xs) == [f(x)] + Map(f, xs)
  {
  }
}

=== FILE: spotify_client.dfy ===
/**
  `SpotifyClient.get_podcast_episodes` (api/spotify_client.py): page
  through a show's episodes with `show_episodes(show_id, limit, offset)`
  until a page comes back empty or shorter than `limit`. The Spotify call
  is an input function from `(offset, limit)` to the page it returns.
 */
module SpotifyClient {

  /** The page the `k`-th call asks for, at offset `k * limit`. */
  function Page<T>(showEpisodes: (nat, nat) -> seq<T>, limit: nat, k: nat): seq<T> {
    showEpisodes(k * limit, limit)
  }

  /** A page that ends the loop: empty, or shorter than `limit`. */
  predicate LastPage<T>(showEpisodes: (nat, nat) -> seq<T>, limit: nat, k: nat) {
    |Page(showEpisodes, limit, k)| < limit
  }

  /** The first `m` pages one after another. */
  function Collected<T>(showEpisodes: (nat, nat) -> seq<T>, limit: nat, m: nat): seq<T>
    decreases m
  {
    if m == 0 then [] else Collected(showEpisodes, limit, m - 1) + Page(showEpisodes, limit, m - 1)
  }

  /** The loop. Besides the episodes the model returns `calls`, the number
      of requests made: the number of the first short page plus one. A show
      whose pages are full forever would keep the loop running, so some page
      is required to be short. */
  method GetPodcastEpisodes<T>(showEpisodes: (nat, nat) -> seq<T>, limit: nat)
    returns (episodes: seq<T>, calls: nat)
    requires 1 <= limit
    requires exists n: nat :: LastPage(showEpisodes, limit, n)
    ensures 1 <= calls
    ensures LastPage(showEpisodes, limit, calls - 1)
    ensures forall k: nat :: k < calls - 1 ==> !LastPage(showEpisodes, limit, k)
    ensures episodes == Collected(showEpisodes, limit, calls)
  {
    ghost var n: nat :| LastPage(showEpisodes, limit, n);
    episodes := [];
    var offset: nat := 0;
    calls := 0;
    while true
      invariant offset == calls * limit
      invariant calls <= n
      invariant forall k: nat :: k < calls ==> !LastPage(showEpisodes, limit, k)
      invariant episodes == Collected(showEpisodes, limit, calls)
      decreases n - calls
    {
      var batch := showEpisodes(offset, limit);
      assert batch == Page(showEpisodes, limit, calls);
      if |batch| == 0 {
        calls := calls + 1;
        return;
      }
      episodes := episodes + batch;
      calls := calls + 1;
      if |batch| < limit {
        return;
      }
      offset := offset + limit;
    }
  }

  /** Every page before the last one is full, so the result holds at least
      `limit` episodes per extra call. */
  lemma {:induction false} CollectedHasFullPages<T>(showEpisodes: (nat, nat) -> seq<T>, limit: nat, m: nat)
    requires forall k: nat :: k < m ==> !LastPage(showEpisodes, limit, k)
    ensures |Collected(showEpisodes, limit, m)| >= m * limit
    decreases m
  {
    if m > 0 {
      CollectedHasFullPages(showEpisodes, limit, m - 1);
      assert !LastPage(showEpisodes, limit, m - 1);
    }
  }

  /** The number of calls is determined by the pages: it is one more than
      the first short page, so two runs over the same pages agree. */
  lemma StopIsFirstShortPage<T>(showEpisodes: (nat, nat) -> seq<T>, limit: nat, c1: nat, c2: nat)
    requires 1 <= c1 && 1 <= c2
    requires LastPage(showEpisodes, limit, c1 - 1) && LastPage(showEpisodes, limit, c2 - 1)
    requires forall k: nat :: k < c1 - 1 ==> !LastPage(showEpisodes, limit, k)
    requires forall k: nat :: k < c2 - 1 ==> !LastPage(showEpisodes, limit, k)
    ensures c1 == c2
    ensures Collected(showEpisodes, limit, c1) == Collected(showEpisodes, limit, c2)
  {
  }

  /** Paging over a catalogue the way Spotify serves it: the slice at the
      offset, at most `limit` long. */
  function Slice<T>(catalogue: seq<T>, offset: nat, limit: nat): (r: seq<T>)
    ensures |r| <= limit
  {
    if offset >= |catalogue| then []
    else if offset + limit <= |catalogue| then catalogue[offset..offset + limit]
    else catalogue[offset..]
  }

  /** Against such a catalogue the loop returns the whole catalogue, in
      order, whatever the page size. */
  lemma {:induction false} CollectedSlicesRebuildCatalogue<T>(catalogue: seq<T>, limit: nat, m: nat)
    requires 1 <= limit
    requires (m - 1) * limit <= |catalogue| || m == 0
    ensures var pages := (o: nat, l: nat) => Slice(catalogue, o, l);
            Collected(pages, limit, m) == catalogue[..if m * limit <= |catalogue| then m * limit else |catalogue|]
    decreases m
  {
    var pages := (o: nat, l: nat) => Slice(catalogue, o, l);
    if m > 0 {
      if (m - 2) * limit <= |catalogue| || m == 1 {
        CollectedSlicesRebuildCatalogue(catalogue, limit, m - 1);
      } else {
        assert false;
      }
      var lo := (m - 1) * limit;
      var hi := if m * limit <= |catalogue| then m * limit else |catalogue|;
      assert m * limit == lo + limit;
      assert Page(pages, limit, m - 1) == catalogue[lo..hi];
      assert catalogue[..lo] + catalogue[lo..hi] == catalogue[..hi];
    }
  }

  lemma ShortSliceReachesEnd<T>(catalogue: seq<T>, limit: nat, c: nat)
    requires 1 <= c
    requires LastPage((o: nat, l: nat) => Slice(catalogue, o, l), limit, c - 1)
    ensures |catalogue| <= c * limit
  {
    assert c * limit == (c - 1) * limit + limit;
  }

  lemma FullSliceWithinCatalogue<T>(catalogue: seq<T>, limit: nat, k: nat)
    requires !LastPage((o: nat, l: nat) => Slice(catalogue, o, l), limit, k)
    ensures (k + 1) * limit <= |catalogue|
  {
    assert (k + 1) * limit == k * limit + limit;
  }

  lemma {:induction false} AtLeastItself(a: nat, b: nat)
    requires 1 <= b
    ensures a <= a * b
  {
    if a > 0 {
      AtLeastItself(a - 1, b);
      assert a * b == (a - 1) * b + b;
    }
  }

  /** The whole catalogue comes back from the loop. */
  method FetchWholeCatalogue<T>(catalogue: seq<T>, limit: nat) returns (episodes: seq<T>)
    requires 1 <= limit
    ensures episodes == catalogue
  {
    var pages := (o: nat, l: nat) => Slice(catalogue, o, l);
    AtLeastItself(|catalogue|, limit);
    assert LastPage(pages, limit, |catalogue|);
    var calls;
    episodes, calls := GetPodcastEpisodes(pages, limit);
    if calls >= 2 {
      FullSliceWithinCatalogue(catalogue, limit, calls - 2);
    }
    ShortSliceReachesEnd(catalogue, limit, calls);
    CollectedSlicesRebuildCatalogue(catalogue, limit, calls);
  }
}

=== FILE: text.dfy ===
/**
  The string operations the front end relies on: lower-casing, substring
  search (`includes`), `trim`, and decimal rendering of integers (template
  literal interpolation), each with an independent characterisation.
 */
module Text {
  import opened Wrappers

  // ---------------------------------------------------------------------
  // Lower-casing (ASCII letters only; see README for Unicode)
  // ---------------------------------------------------------------------

  function LowerChar(c: char): char {
    if 'A' <= c <= 'Z' then (c as int + 32) as char else c
  }

  /** `s.toLowerCase()`, restricted to the ASCII letters. */
  function Lower(s: string): (r: string)
    ensures |r| == |s|
    ensures forall i :: 0 <= i < |s| ==> r[i] == LowerChar(s[i])
  {
    seq(|s|, i requires 0 <= i < |s| => LowerChar(s[i]))
  }

  /** Two strings that differ only in the case of ASCII letters lower-case
      to the same string, so comparisons after `Lower` ignore case. */
  lemma LowerIgnoresCase(s: string, t: string)
    requires |s| == |t|
    requires forall i :: 0 <= i < |s| ==> LowerChar(s[i]) == LowerChar(t[i])
    ensures Lower(s) == Lower(t)
  {
  }

  // ---------------------------------------------------------------------
  // Substring search
  // ---------------------------------------------------------------------

  predicate IsPrefix(p: string, s: string) {
    |p| <= |s| && s[..|p|] == p
  }

  /** `s.includes(sub)`: `sub` starts at some position of `s`. */
  predicate Contains(s: string, sub: string)
    decreases |s|
  {
    IsPrefix(sub, s) || (|s| > 0 && Contains(s[1..], sub))
  }

  /** `sub` occurs in `s` starting at position `i`. */
  ghost predicate OccursAt(s: string, sub: string, i: int) {
    0 <= i && i + |sub| <= |s| && s[i..i + |sub|] == sub
  }

  /** The recursive search agrees with the positional definition. */
  lemma {:induction false} ContainsIffOccurs(s: string, sub: string)
    ensures Contains(s, sub) <==> exists i :: OccursAt(s, sub, i)
    decreases |s|
  {
    if IsPrefix(sub, s) {
      assert OccursAt(s, sub, 0);
    }
    if |s| > 0 {
      ContainsIffOccurs(s[1..], sub);
      if exists i :: OccursAt(s[1..], sub, i) {
        var i :| OccursAt(s[1..], sub, i);
        assert s[i + 1..i + 1 + |sub|] == s[1..][i..i + |sub|];
        assert OccursAt(s, sub, i + 1);
      }
      if exists i :: OccursAt(s, sub, i) {
        var i :| OccursAt(s, sub, i);
        if i == 0 {
          assert IsPrefix(sub, s);
        } else {
          assert s[1..][i - 1..i - 1 + |sub|] == s[i..i + |sub|];
          assert OccursAt(s[1..], sub, i - 1);
        }
      }
    } else if exists i :: OccursAt(s, sub, i) {
      var i :| OccursAt(s, sub, i);
      assert IsPrefix(sub, s);
    }
  }

  /** A string never includes a longer one. */
  lemma {:induction false} ShorterContainsNothingLonger(s: string, sub: string)
    requires |s| < |sub|
    ensures !Contains(s, sub)
    decreases |s|
  {
    if |s| > 0 {
      ShorterContainsNothingLonger(s[1..], sub);
    }
  }

  /** Every string includes the empty string. */
  lemma ContainsEmpty(s: string)
    ensures Contains(s, "")
  {
    assert IsPrefix("", s);
  }

  // ---------------------------------------------------------------------
  // trim
  // ---------------------------------------------------------------------

  /** The characters `String.prototype.trim` removes: the ECMAScript
      WhiteSpace (including every space separator) and LineTerminator code
      points. */
  predicate IsJsWhitespace(c: char) {
    var n := c as int;
    n == 0x09 || n == 0x0A || n == 0x0B || n == 0x0C || n == 0x0D
    || n == 0x20 || n == 0xA0 || n == 0x1680 || (0x2000 <= n <= 0x200A)
    || n == 0x2028 || n == 0x2029 || n == 0x202F || n == 0x205F
    || n == 0x3000 || n == 0xFEFF
  }

  ghost predicate AllWhitespace(s: string) {
    forall i :: 0 <= i < |s| ==> IsJsWhitespace(s[i])
  }

  function TrimStart(s: string): (r: string)
    ensures |r| <= |s| && r == s[|s| - |r|..]
    ensures AllWhitespace(s[..|s| - |r|])
    ensures r == [] || !IsJsWhitespace(r[0])
    decreases |s|
  {
    if |s| > 0 && IsJsWhitespace(s[0]) then
      var r := TrimStart(s[1..]);
      assert s[..|s| - |r|] == [s[0]] + s[1..][..|s[1..]| - |r|];
      r
    else s
  }

  function TrimEnd(s: string): (r: string)
    ensures |r| <= |s| && r == s[..|r|]
    ensures AllWhitespace(s[|r|..])
    ensures r == [] || !IsJsWhitespace(r[|r| - 1])
    decreases |s|
  {
    if |s| > 0 && IsJsWhitespace(s[|s| - 1]) then
      var r := TrimEnd(s[..|s| - 1]);
      assert s[|r|..] == s[..|s| - 1][|r|..] + [s[|s| - 1]];
      r
    else s
  }

  /** `s.trim()`: `s` with its leading and trailing whitespace removed. */
  function Trim(s: string): (r: string)
    ensures |r| <= |s|
    ensures r == [] || (!IsJsWhitespace(r[0]) && !IsJsWhitespace(r[|r| - 1]))
  {
    TrimEnd(TrimStart(s))
  }

  /** A string trims to the empty string exactly when it is all whitespace. */
  lemma {:induction false} TrimEmptyIffBlank(s: string)
    ensures Trim(s) == "" <==> AllWhitespace(s)
  {
    var t := TrimStart(s);
    var k := |s| - |t|;
    if Trim(s) == "" {
      assert AllWhitespace(t[0..]);
      assert t == [];
      assert s[..k] == s;
    }
    if AllWhitespace(s) {
      BlankTrimsStartToEmpty(s);
    }
  }

  lemma {:induction false} BlankTrimsStartToEmpty(s: string)
    requires AllWhitespace(s)
    ensures TrimStart(s) == ""
    decreases |s|
  {
    if |s| > 0 {
      assert IsJsWhitespace(s[0]);
      assert forall i :: 0 <= i < |s| - 1 ==> s[1..][i] == s[i + 1];
      BlankTrimsStartToEmpty(s[1..]);
    }
  }

  /** A string that starts with a visible character is not blank. */
  lemma VisibleFirstIsNotBlank(s: string)
    requires |s| > 0 && !IsJsWhitespace(s[0])
    ensures Trim(s) != ""
  {
    TrimEmptyIffBlank(s);
  }

  // ---------------------------------------------------------------------
  // Decimal rendering of integers (`${n}`) and its inverse
  // ---------------------------------------------------------------------

  predicate IsDigit(c: char) {
    '0' <= c <= '9'
  }

  predicate AllDigits(s: string) {
    forall i :: 0 <= i < |s| ==> IsDigit(s[i])
  }

  function DigitChar(d: nat): (c: char)
    requires d < 10
    ensures IsDigit(c) && c as int - '0' as int == d
  {
    ('0' as int + d) as char
  }

  function DigitValue(c: char): (d: nat)
    requires IsDigit(c)
    ensures d < 10
  {
    c as int - '0' as int
  }

  /** The decimal digits of `n`, most significant first, without leading
      zeros. */
  function NatToDecimal(n: nat): (r: string)
    ensures |r| >= 1 && AllDigits(r)
    ensures |r| > 1 ==> r[0] != '0'
    decreases n
  {
    if n < 10 then [DigitChar(n)]
    else NatToDecimal(n / 10) + [DigitChar(n % 10)]
  }

  /** The number a string of decimal digits denotes. */
  function DecimalValue(s: string): nat
    requires AllDigits(s)
    decreases |s|
  {
    if s == [] then 0
    else DecimalValue(s[..|s| - 1]) * 10 + DigitValue(s[|s| - 1])
  }

  lemma {:induction false} DecimalRoundTrip(n: nat)
    ensures DecimalValue(NatToDecimal(n)) == n
    decreases n
  {
    if n >= 10 {
      DecimalRoundTrip(n / 10);
      var r := NatToDecimal(n);
      assert r[..|r| - 1] == NatToDecimal(n / 10);
    }
  }

  /** `${n}` for an integer `n`. */
  function IntToDecimal(n: int): (r: string)
    ensures |r| >= 1
    ensures forall i :: 0 <= i < |r| ==> IsDigit(r[i]) || r[i] == '-'
  {
    if n < 0 then "-" + NatToDecimal(-n) else NatToDecimal(n)
  }

  /** Reads back an optionally signed decimal integer. */
  function ParseInt(s: string): Option<int> {
    if |s| >= 2 && s[0] == '-' && AllDigits(s[1..]) then
      var v: int := DecimalValue(s[1..]);
      Some(-v)
    else if |s| >= 1 && AllDigits(s) then Some(DecimalValue(s))
    else None
  }

  lemma IntRoundTrip(n: int)
    ensures ParseInt(IntToDecimal(n)) == Some(n)
  {
    if n < 0 {
      DecimalRoundTrip(-n);
      assert IntToDecimal(n)[1..] == NatToDecimal(-n);
    } else {
      DecimalRoundTrip(n);
    }
  }
}

=== FILE: timeline.dfy ===
/**
  The timeline of the user's reviews (app/components/Timeline.tsx): a
  newest-first view of the stored list, a like toggle kept on the client,
  and the five-star line under each post.
 */
module Timeline {
  import opened Wrappers
  import opened Sorting

  /** A review as the timeline shows it; `likes` and `isLiked` are optional
      and only ever set by the like button. */
  datatype Post = Post(
    id: int,
    episodeId: string,
    rating: int,
    review: string,
    timestamp: int,
    name: string,
    showName: string,
    imageUrl: Option<string>,
    likes: Option<int>,
    comments: Option<int>,
    isLiked: Option<bool>)

  /** `review.likes || 0` */
  function LikeCount(p: Post): int {
    p.likes.GetOr(0)
  }

  /** `review.isLiked`, read as a condition. */
  predicate Liked(p: Post) {
    TruthyBool(p.isLiked)
  }

  function Timestamp(p: Post): int {
    p.timestamp
  }

  /** `sortedReviews`: a fresh copy sorted newest first. */
  function SortedPosts(posts: seq<Post>): (r: seq<Post>)
    ensures SortedDesc(r, Timestamp)
    ensures multiset(r) == multiset(posts)
  {
    SortDesc(posts, Timestamp)
  }

  /** The like button's effect on one post. */
  function ToggleLike(p: Post): (q: Post)
    ensures LikeCount(q) == LikeCount(p) + (if Liked(p) then -1 else 1)
    ensures Liked(q) <==> !Liked(p)
    ensures q.(likes := p.likes, isLiked := p.isLiked) == p
  {
    p.(likes := Some(LikeCount(p) + (if Liked(p) then -1 else 1)), isLiked := Some(!Liked(p)))
  }

  function LikeIf(id: int): Post -> Post {
    (p: Post) => if p.id == id then ToggleLike(p) else p
  }

  /** `handleLike(reviewId)`: the stored list keeps its order and only the
      posts with that id change. */
  function HandleLike(posts: seq<Post>, id: int): (r: seq<Post>)
    ensures |r| == |posts|
    ensures forall i :: 0 <= i < |posts| && posts[i].id != id ==> r[i] == posts[i]
    ensures forall i :: 0 <= i < |posts| && posts[i].id == id ==>
              LikeCount(r[i]) == LikeCount(posts[i]) + (if Liked(posts[i]) then -1 else 1)
              && (Liked(r[i]) <==> !Liked(posts[i]))
              && r[i].(likes := posts[i].likes, isLiked := posts[i].isLiked) == posts[i]
  {
    Map(LikeIf(id), posts)
  }

  /** A post with a missing count read as 0 and a missing flag as false. */
  function Normalized(p: Post): Post {
    p.(likes := Some(LikeCount(p)), isLiked := Some(Liked(p)))
  }

  /** Liking twice gives back the count and the flag, up to reading a missing
      count as 0 and a missing flag as false; every other post is untouched. */
  lemma LikeTwiceRestores(posts: seq<Post>, id: int)
    ensures var r := HandleLike(HandleLike(posts, id), id);
            |r| == |posts|
            && forall i :: 0 <= i < |posts| ==>
                 r[i] == (if posts[i].id == id then Normalized(posts[i]) else posts[i])
  {
  }

  /** Liking does not touch timestamps, so the newest-first view after a
      like is the like applied to the view before it. */
  lemma LikeKeepsTimelineOrder(posts: seq<Post>, id: int)
    ensures SortedPosts(HandleLike(posts, id)) == HandleLike(SortedPosts(posts), id)
  {
    SortCommutesWithKeyPreservingMap(LikeIf(id), posts, Timestamp);
  }

  /** `'★'.repeat(n)`: a `RangeError` (`None`) for a negative count. */
  function RepeatStar(n: int): (r: Option<string>)
    ensures r.Some? <==> n >= 0
    ensures r.Some? ==> |r.value| == n && forall i :: 0 <= i < |r.value| ==> r.value[i] == '★'
  {
    if n < 0 then None else Some(seq(n, _ => '★'))
  }

  /** The filled and the grey stars of a post; rendering throws unless both
      counts are non-negative, that is unless the rating is 0 to 5. */
  function StarLine(rating: int): (r: Option<(string, string)>)
    ensures r.Some? <==> 0 <= rating <= 5
    ensures r.Some? ==> |r.value.0| == rating && |r.value.0| + |r.value.1| == 5
  {
    match (RepeatStar(rating), RepeatStar(5 - rating))
    case (Some(filled), Some(empty)) => Some((filled, empty))
    case _ => None
  }
}

=== FILE: wrappers.dfy ===
/**
  Optional values and the JavaScript notion of "truthiness" that the
  front end uses for its optional record fields.
 */
module Wrappers {

  /** An optional value; `None` stands for a JavaScript `undefined`/`null`
      or a Python `None`. */
  datatype Option<+T> = None | Some(value: T) {

    /** The wrapped value, or `default` when there is none (`x ?? d`). */
    function GetOr(default: T): T {
      match this
      case Some(v) => v
      case None => default
    }
  }

  /** An optional boolean is truthy only when it is present and `true`. */
  predicate TruthyBool(b: Option<bool>) {
    b == Some(true)
  }

  /** An optional number is truthy only when it is present and non-zero
      (`undefined` and `0` are both falsy). */
  predicate TruthyInt(n: Option<int>) {
    n.Some? && n.value != 0
  }

  /** How an asynchronous request without a useful body ended: the response
      was ok, it came back with a non-ok status, or the request threw. */
  datatype Outcome = Success | HttpError | Thrown {
    predicate Ok() { this == Success }
  }

  /** How an asynchronous request with a JSON body ended; `Rejected` covers a
      network failure as well as a body that could not be parsed. */
  datatype Response<+T> = Ok(body: T) | NotOk | Rejected
}
